=== FILE: README.md ===
# aws-cli-utility: bucket listing, bulk download and the command shell in Dafny

This project models the sequential logic inside `aws-cli-utility`, a small
Go command-line tool for Amazon S3. It covers two pieces.

**Bucket listing and bulk download** (`src/awscli/awscmds/main.go`):

- `listBucketFiles` and the copy of its loop in `SearchBucketFiles` page
  through a bucket with a marker. The result is the first page followed by
  every later page without its first entry, which the code assumes repeats
  the marker (see the two provider models below).
- `renderBucketList` reports the object count and total size.
- `formatFileSize` picks a unit by strict decimal bounds (1000, 10^6,
  10^9) and divides with truncation.
- `downloadBucket` does four things:
  - counts the eligible objects (size not zero, changed strictly after the
    cutoff) and their bytes;
  - a producer queues one job per eligible object, then ten stop signals;
  - ten workers download;
  - an aggregator adds up the downloaded sizes and computes the progress
    percentage and bar.

**The interactive shell** (`src/awscli/main.go`):

- `getCommand` trims the line of spaces and newline characters. It splits
  off the command at the first space. It then cuts the rest at every space
  outside double quotes, where each `"` toggles the quoted state, and trims
  `"` and spaces from each token.
- `exec` dispatches on the command name and the number of arguments.

Modules and files:

| file | module | contents |
|---|---|---|
| `basics.dfy` | `Basics` | `Option` and `Result` |
| `arithmetic.dfy` | `Arithmetic` | monotonicity of multiplication and of truncating division |
| `sizes.dfy` | `Sizes` | decimal printing and parsing, `FormatFileSize` |
| `listing.dfy` | `Listing` | entries, pages, the pagination loop, totals, two provider models |
| `bulk.dfy` | `Bulk` | eligibility, pre-count, producer, worker pool, aggregator, `DownloadBucket` |
| `shell.dfy` | `Shell` | `Trim`, the tokenizer `GetCommand`, the dispatcher `Exec` |

How the model stands in for what it cannot run:

- **The remote listing is a recorded conversation.** `responses[k]` answers
  the k-th list request, either `Answered(page)` or `Failed(reason)`. The
  pagination method also returns the requests it sent, so the marker rule
  is stated on them.
- **The loop must stop within the recording.** `Ends(responses)` requires
  some response at which the Go loop stops: one not truncated, failed, or
  an empty follow-up page. The Go loop itself would not stop if the
  provider never stopped.
- **An empty follow-up page is an error.** `li.Contents[1:]` panics on an
  empty page in Go. The model returns the error `EmptyFollowUpPage`.
- **Two provider models show what the marker rule recovers.**
  - `InclusiveMarkerListsEveryObject`: a provider whose next page starts AT
    the marker's key gives back every object exactly once.
  - `ExclusiveMarkerLosesObjects`: a provider whose next page starts AFTER
    the marker's key makes the loop drop one real object per follow-up page.
  - Which of the two a provider does is outside the code; the two lemmas
    state what the loop yields in each case.
- **The worker pool is modelled by its effect.**
  - Workers take jobs from the queue in queue order.
  - A failed download still reports a completion, then ends its worker.
  - So job k is taken exactly when fewer than ten of the jobs before it
    failed. This does not depend on the schedule, provided every download
    returns (see `Bulk.RunOutcomeDownloaded` under "Left out").
  - The aggregator waits for `totct` completions. When fewer come (too many
    failures, or a directory that could not be created), `downloadBucket`
    never returns: the process either hangs or is aborted by Go's deadlock
    detector. The model reports both endings as the outcome `Stalled(n)`.
  - The order in which completions reach the aggregator depends on the
    schedule. `DownloadBucket` takes it as a parameter `arrival` that may
    reorder the completions in any way. The reports follow that order;
    the sum does not depend on it.
- **Foreign calls are function parameters:**
  - `join` stands for `filepath.Join`;
  - `makeParent` for whether `os.MkdirAll` of the parent directory
    succeeds;
  - `fetch` for `downloadFile`;
  - `parseDate` for `time.ParseInLocation` with layout `2006-01-02`.
- **Times are integers.** They are ticks since the Unix epoch at Go's
  resolution (nanoseconds), so "modified after" is `>` on integers and the
  default cutoff `time.Unix(0, 0)` is `0`.

An example of the eligibility rule: objects A (100 bytes, changed at
time 1), B (empty, changed at time 3) and C (50 bytes, changed at time 0).
With the cutoff at time 2 nothing is downloaded: A and C were changed
before the cutoff and B is empty. With the cutoff at time 0, A alone
(100 bytes) is downloaded, because C was changed exactly at the cutoff and
only changes strictly after it count. `Bulk.EligibilityScenario` proves
both outcomes.

## Model

| member | source | states |
|---|---|---|
| Sizes.NatToDecimal | src/awscli/awscmds/main.go:380 | `strconv.FormatInt` of a natural number: a non-empty digit string with no leading zero whose decimal value is the number |
| Sizes.IntToDecimal | src/awscli/awscmds/main.go:380 | `strconv.FormatInt(n, 10)`: for n >= 0 the digits of n with no leading zero; for n < 0 a '-' followed by the digits of -n with no leading zero |
| Sizes.IntToDecimalRoundTrip | src/awscli/awscmds/main.go:380 | reading back the decimal text of any integer, sign included, gives the integer |
| Sizes.FormatFileSize | src/awscli/awscmds/main.go:378-394 | the text ends in exactly one of `" B "`, `" KB"`, `" MB"`, `" GB"`; `" B "` iff size < 1000, `" KB"` iff 1000 <= size < 10^6, `" MB"` iff 10^6 <= size < 10^9, `" GB"` iff size >= 10^9; the number before the suffix is the canonical decimal text (no leading zero) of size divided by the unit, truncated, and reads back as that quotient |
| Sizes.FormatFileSizeRange | src/awscli/awscmds/main.go:379-392 | for a non-negative size the shown number is the size in whole units (shown * unit <= size < (shown + 1) * unit); it is below 1000 except in GB and at least 1 except in B |
| Sizes.FormatFileSizeBelowKB | src/awscli/awscmds/main.go:379-380 | 999 is shown as "999 B " |
| Sizes.FormatFileSizeAtKB | src/awscli/awscmds/main.go:383-384 | 1000 is shown as "1 KB" |
| Listing.StopIndex | src/awscli/awscmds/main.go:114-132 | the response at which the loop stops: not continued, with every earlier response answered and truncated (and non-empty if a follow-up) |
| Listing.MarkerAfterNext | src/awscli/awscmds/main.go:129-131 | after a non-empty page the marker is that page's last key |
| Listing.RequestsSentNext | src/awscli/awscmds/main.go:118-122 | each follow-up request carries, as marker, the last key of the most recent non-empty page received so far |
| Listing.Paginate | src/awscli/awscmds/main.go:98-135 | the requests sent are the first request without marker and then one request per continued response with the marker rule; the result is no listing if the last request failed or a follow-up page was empty, otherwise the first page followed by each later page minus its first entry |
| Listing.TailsLength | src/awscli/awscmds/main.go:127 | appending follow-up pages without their first entries adds all their entries less one per page |
| Listing.ListingLength | src/awscli/awscmds/main.go:108-132 | a successful listing has every response answered and holds the entries received minus one per follow-up page |
| Listing.FailedRequestGivesNoListing | src/awscli/awscmds/main.go:104-106 | a failed request, first or follow-up, leaves no listing but the request's error |
| Listing.InclusiveMarkerListsEveryObject | src/awscli/awscmds/main.go:108-132 | against a provider that resumes at the marker's key (unique keys, page size at least 2) the listing is exactly the bucket's objects, in order, each once |
| Listing.ExclusiveMarkerLosesObjects | src/awscli/awscmds/main.go:118-127 | against a provider that resumes after the marker's key the listing succeeds but is short by one object per follow-up page, and the first object of the second page is missing |
| Listing.RenderTotals | src/awscli/awscmds/main.go:194-202 | the reported count is the number of entries, the total is the sum of their sizes, and its text is the formatted total |
| Listing.ListAndRender | src/awscli/awscmds/main.go:137-192 | listing and search report totals exactly when the listing succeeds, with count and total of the listing, and the listing's error otherwise |
| Bulk.EligibleEntriesCount | src/awscli/awscmds/main.go:281-290 | an entry is kept as often as it occurs in the listing iff its size is not zero and it changed strictly after the cutoff, otherwise never; an entry changed exactly at the cutoff is excluded |
| Bulk.EligiblePrefix | src/awscli/awscmds/main.go:326-349 | filtering a prefix of the listing gives a prefix of the filtered listing, so jobs keep listing order |
| Bulk.CountEligible | src/awscli/awscmds/main.go:279-291 | totct is the number of eligible entries and tot the sum of their sizes |
| Bulk.FirstUnplaceable | src/awscli/awscmds/main.go:336-342 | the first job whose directory cannot be created: all earlier ones can be |
| Bulk.Produce | src/awscli/awscmds/main.go:325-355 | the producer sends one job per eligible entry, in listing order, with the bucket, the key and the joined local path, up to the first directory that cannot be created; only when there is none does it then send the stop signals |
| Bulk.ProducerStreamShape | src/awscli/awscmds/main.go:319-354 | without a directory failure the todo stream is the totct jobs followed by exactly 10 stop signals; the workers take exactly the jobs before the first stop signal |
| Bulk.QueuedJobsOfStream | src/awscli/awscmds/main.go:300-304 | a worker takes jobs until it reads a stop signal: the jobs taken are exactly those queued before it |
| Bulk.Completions | src/awscli/awscmds/main.go:296-317 | the jobs completed are the first jobs of the queue, no more than were queued, each with the size its download returned (0 on failure) |
| Bulk.CompletionsTaken | src/awscli/awscmds/main.go:296-317 | job k is taken (and completed) iff fewer downloads than live workers fail among the jobs before it |
| Bulk.CompletionsAll | src/awscli/awscmds/main.go:307-313 | every job completes iff fewer downloads than live workers fail before the last job |
| Bulk.AllFailing | src/awscli/awscmds/main.go:307-313 | when every download fails, exactly min(jobs, workers) jobs complete |
| Bulk.SumDownloadedPermutation | src/awscli/awscmds/main.go:357-361 | the aggregated sum does not depend on the order in which completions arrive |
| Bulk.SumOfCompletions | src/awscli/awscmds/main.go:307-361 | when every job completes, the aggregated sum is the bytes of the successful downloads |
| Bulk.Percent | src/awscli/awscmds/main.go:365 | the progress percentage (i + 1) * 100 / totct lies in 0..100 |
| Bulk.PercentMonotone | src/awscli/awscmds/main.go:365 | the percentage never decreases from one completion to the next |
| Bulk.PercentComplete | src/awscli/awscmds/main.go:365 | at the last completion the percentage is exactly 100 |
| Bulk.Bar | src/awscli/awscmds/main.go:366 | the bar is exactly p '=' characters |
| Bulk.Aggregate | src/awscli/awscmds/main.go:357-368 | the sum is the sum of the completion sizes; unless silent there is one report per completion with its file, size, percentage, bar, running sum and the total; when silent there are none |
| Bulk.DownloadBucket | src/awscli/awscmds/main.go:271-376 | a failed listing is the only error, with nothing queued; otherwise the todo stream is the producer stream of the eligible jobs and the outcome is the run outcome of those jobs; the completions reach the aggregator in an arrival order that is a permutation of them, and unless silent there is one report per arrival, with its file, size, percentage of the eligible count, bar, running sum in arrival order and the eligible total |
| Bulk.RunOutcomeDownloaded | src/awscli/awscmds/main.go:319-361 | the download finishes iff every directory could be created and fewer than 10 downloads fail before the last job |
| Bulk.RunOutcomeBytes | src/awscli/awscmds/main.go:357-361 | a finished download returns the bytes of the successful downloads |
| Bulk.UnplaceableStalls | src/awscli/awscmds/main.go:338-342 | a directory that cannot be created stalls the aggregator, with at most the earlier jobs completed |
| Bulk.AllFailingStalls | src/awscli/awscmds/main.go:307-313 | with more jobs than workers and every download failing, the aggregator receives exactly 10 completions and stalls |
| Bulk.EligibilityScenario | src/awscli/awscmds/main.go:282-290 | the three-object example: nothing qualifies when the cutoff is after A and C and B is empty; with the cutoff at C's time, A alone qualifies, with 100 bytes |
| Shell.Trim | src/awscli/main.go:87 | the trimmed text is no longer than the input and neither starts nor ends with a cut character |
| Shell.TrimIsSlice | src/awscli/main.go:87 | trimming keeps exactly the slice whose outside is all cut characters and whose ends are not |
| Shell.IndexOf | src/awscli/main.go:90 | the index of the first occurrence of the character |
| Shell.SplitJoin | src/awscli/main.go:102-114 | joining the raw tokens with single spaces gives back the remainder exactly, so no character is lost or added |
| Shell.SplitAtSeparators | src/awscli/main.go:102-111 | every boundary between two raw tokens falls on a space with an even number of quotes before it |
| Shell.SplitCount | src/awscli/main.go:98-114 | the token count is the number of spaces with an even number of quotes before them, plus one |
| Shell.CommandLine | src/awscli/main.go:87-116 | the command contains no space; there are no arguments iff the trimmed line has no space, and then the command is the whole trimmed line |
| Shell.CommandBeforeFirstSpace | src/awscli/main.go:90-96 | when the trimmed line is name, space, rest and name has no space, the command is name and the tokens come from rest alone |
| Shell.GetCommand | src/awscli/main.go:87-116 | the command and arguments the tokenizer loop computes are those of the line's specification |
| Shell.DoubleSpaceExample | src/awscli/main.go:102-114 | `s3-object-ls a  b` gives the arguments "a", "" and "b": two spaces in a row give an empty token |
| Shell.QuotedArgumentExample | src/awscli/main.go:102-114 | `s3-bucket-dl b "x y"` gives the arguments "b" and "x y": the quoted space does not split and the quotes are trimmed |
| Shell.Exec | src/awscli/main.go:119-165 | help and unknown commands print the command list; `s3-object-ls` lists bucket args[0] with 1 argument, searches bucket args[0] for prefix args[1] with 2, and prints usage with the comma-joined arguments otherwise; `s3-bucket-ls` lists the buckets; `s3-object-dl` downloads bucket, key and local file args[0..2] iff there are exactly 3 arguments, usage otherwise; `s3-bucket-dl` downloads bucket args[0] into args[1] iff there are 2 arguments (cutoff 0) or 3 with a parsable date (that date), reports the bad date iff there are 3 and the date does not parse, and usage for any other count; `exit` exits |
| Shell.BucketDownloadExample | src/awscli/main.go:138-158 | `s3-bucket-dl b "x y"` downloads bucket b into "x y" with cutoff 0 |

## Left out

- AWS SDK calls are not modelled (sessions, clients, `ListObjects`, `ListBuckets`, `GetObject`, file creation and copying). The listing is the recorded `responses`; the download is the `fetch` parameter.
- Goroutines, channels and blocking receives are not modelled. The worker pool is modelled by which jobs complete. The order in which they reach the aggregator is the `arrival` parameter, which may be any reordering, so it covers every order the channel allows and more. A run whose aggregator waits for a completion that never comes is the outcome `Stalled`: `downloadBucket` never returns, whether the process then hangs or is aborted by Go's deadlock detector.
- The workers assign the shared outer `err` variable, which is a data race. This is not modelled; each worker's failure is taken from its own download result.
- Goroutines left blocked are not modelled:
  - after a directory cannot be created, the producer returns without sending stop signals, and the surviving workers wait on the queue forever (beside the aggregator, which the `Stalled` outcome records);
  - in a run that finishes after some downloads failed, fewer than 10 workers remain to take the 10 stop signals, so the producer blocks forever on the rest. `todo` lists the signals the producer offers, not the ones delivered;
  - when every worker has died, the producer also blocks on its next job.
- Bulk.Percent, Bulk.Aggregate, Sizes.FormatFileSize: Go's `int` and `int64` wrap at 64 bits; the model uses unbounded integers, so overflow of sizes, sums and `(i + 1) * 100` is not modelled.
- Printed text is not modelled: column widths, messages, the listing table with owner, class and date columns, and the "Downloaded in" timing. `Entry` therefore omits owner and storage class. The progress report keeps the numbers and the bar.
- Shell.GetCommand: the 100-byte read from standard input and its error are outside the model; the line is a parameter. Go trims and splits bytes, while the model works on characters. The two agree because space, `"` and newline are single bytes.
- The `newline` constant is defined outside these files and is a parameter.
- `time.ParseInLocation` is the `parseDate` parameter. The date format itself is not modelled.
- Exec chooses an action but does not perform it. `exit` ending the process is the action `Exit`.
- `src/awscli/noninteractive.go` and its hourly loop, environment and flag handling, and `printCommands` text are not part of this model.
- Bulk.RunOutcomeDownloaded: every list request and every download is assumed to return (`responses` answers each request; `fetch` is a total function). The code sets no time-out, deadline or context on `ListObjects`, `GetObject` or `io.Copy`; a call that never returns stalls the listing loop or leaves its worker neither dead nor free, so the aggregator never reaches `totct` even with every directory created and no failure. That ending is not modelled, and the "finishes iff" and "does not depend on the schedule" statements hold only for calls that return.
- Listing.Paginate: only conversations in which the loop stops are covered (`Ends`). Against a provider that keeps answering with truncated pages, the Go loop never ends.

=== FILE: arithmetic.dfy ===
/**
 * Facts about multiplication and truncating division of natural numbers,
 * where Go's integer division and Dafny's agree.
 */
module Arithmetic {
  /** Multiplication by a natural number is monotone. */
  lemma MulMono(x: int, y: int, n: nat)
    requires x <= y
    ensures x * n <= y * n
  {
    var d := y - x;
    assert y * n == x * n + d * n;
  }

  /** The quotient rounds down. */
  lemma DivBounds(a: nat, n: nat)
    requires n > 0
    ensures (a / n) * n <= a < (a / n + 1) * n
  {
    var q, r := a / n, a % n;
    assert a == q * n + r && 0 <= r < n;
  }

  /** Division by a positive number is monotone. */
  lemma DivMono(a: nat, b: nat, n: nat)
    requires n > 0 && a <= b
    ensures a / n <= b / n
  {
    DivBounds(a, n);
    DivBounds(b, n);
    if a / n > b / n {
      MulMono(b / n + 1, a / n, n);
    }
  }

  /** A number at most c times n gives a quotient at most c. */
  lemma DivAtMost(a: nat, n: nat, c: nat)
    requires n > 0 && a <= c * n
    ensures a / n <= c
  {
    DivBounds(a, n);
    if a / n > c {
      MulMono(c + 1, a / n, n);
    }
  }

  /** Whole units of b in a number between lo units and hi units. */
  lemma QuotientRange(size: nat, b: nat, lo: nat, hi: nat)
    requires b > 0 && lo * b <= size < hi * b
    ensures (size / b) * b <= size < (size / b + 1) * b
    ensures lo <= size / b < hi
  {
    DivBounds(size, b);
    if size / b < lo {
      MulMono(size / b + 1, lo, b);
    }
    if size / b >= hi {
      MulMono(hi, size / b, b);
    }
  }
}

=== FILE: basics.dfy ===
/** Failure-carrying wrappers shared by the other modules. */
module Basics {

  datatype Option<+T> = None | Some(value: T)

  datatype Result<+T, +E> = Ok(value: T) | Err(error: E)
}

=== FILE: bulk.dfy ===
/**
 * Bulk download of a bucket (`downloadBucket`), seen sequentially: the
 * eligibility filter and its up-front count and total, the producer that
 * queues one job per eligible object followed by one stop signal per
 * worker, the effect of the worker pool on which jobs complete, and the
 * aggregator that sums the completions and computes the progress bar.
 *
 * Path joining, directory creation and the object download are foreign
 * calls and appear as function parameters: `join` for filepath.Join,
 * `makeParent` for "MkdirAll(filepath.Dir(path)) succeeded", `fetch` for
 * downloadFile.
 */
module Bulk {
  import opened Basics
  import opened Listing
  import Arithmetic

  /** Number of worker goroutines, and of nil stop signals sent after the jobs. */
  const NWorkers: nat := 10

  /** An object is downloaded when it is not empty and changed strictly after the cutoff. */
  predicate Eligible(e: Entry, modifiedAfter: int)
  {
    e.size != 0 && e.lastModified > modifiedAfter
  }

  /** The eligible entries of a listing, in listing order. */
  function EligibleEntries(lst: seq<Entry>, modifiedAfter: int): seq<Entry>
  {
    if lst == [] then []
    else
      var last := lst[|lst| - 1];
      EligibleEntries(lst[..|lst| - 1], modifiedAfter) + (if Eligible(last, modifiedAfter) then [last] else [])
  }

  /**
   * Each eligible entry is kept exactly as often as it occurs in the
   * listing; an ineligible entry never is.
   */
  lemma {:induction false} EligibleEntriesCount(lst: seq<Entry>, modifiedAfter: int, e: Entry)
    ensures multiset(EligibleEntries(lst, modifiedAfter))[e]
         == if Eligible(e, modifiedAfter) then multiset(lst)[e] else 0
  {
    if lst != [] {
      var init := lst[..|lst| - 1];
      assert lst == init + [lst[|lst| - 1]];
      EligibleEntriesCount(init, modifiedAfter, e);
    }
  }

  /** Filtering a longer prefix of the listing extends the filtered prefix. */
  lemma {:induction false} EligiblePrefix(lst: seq<Entry>, modifiedAfter: int, i: nat)
    requires i <= |lst|
    ensures EligibleEntries(lst[..i], modifiedAfter) <= EligibleEntries(lst, modifiedAfter)
    decreases |lst| - i
  {
    if i < |lst| {
      EligiblePrefix(lst, modifiedAfter, i + 1);
      assert lst[..i + 1][..i] == lst[..i];
    } else {
      assert lst[..i] == lst;
    }
  }

  /** One more entry of the listing adds itself to the filtered list when it is eligible. */
  lemma EligibleStep(lst: seq<Entry>, modifiedAfter: int, i: nat)
    requires i < |lst|
    ensures EligibleEntries(lst[..i + 1], modifiedAfter)
         == EligibleEntries(lst[..i], modifiedAfter) + (if Eligible(lst[i], modifiedAfter) then [lst[i]] else [])
  {
    assert lst[..i + 1][..i] == lst[..i];
  }

  /**
   * The pre-count loop: how many entries are eligible and how many bytes
   * they hold (totct and tot).
   */
  method CountEligible(lst: seq<Entry>, modifiedAfter: int) returns (totct: nat, tot: int)
    ensures totct == |EligibleEntries(lst, modifiedAfter)|
    ensures tot == TotalSize(EligibleEntries(lst, modifiedAfter))
  {
    tot, totct := 0, 0;
    for i := 0 to |lst|
      invariant totct == |EligibleEntries(lst[..i], modifiedAfter)|
      invariant tot == TotalSize(EligibleEntries(lst[..i], modifiedAfter))
    {
      var v := lst[i];
      ghost var before := EligibleEntries(lst[..i], modifiedAfter);
      EligibleStep(lst, modifiedAfter, i);
      assert before + [] == before;
      if v.size == 0 {
        // directory markers
        continue;
      }
      if v.lastModified > modifiedAfter {
        assert (before + [v])[..|before|] == before;
        assert TotalSize(before + [v]) == TotalSize(before) + v.size;
        tot := tot + v.size;
        totct := totct + 1;
      }
    }
    assert lst[..|lst|] == lst;
  }

  /** One download job: the object and the local file it is written to. */
  datatype Job = Job(bucket: string, key: string, localFilePath: string)

  function JobFor(bucket: string, localDir: string, join: (string, string) -> string, e: Entry): Job
  {
    Job(bucket, e.key, join(localDir, e.key))
  }

  function JobsFor(bucket: string, localDir: string, join: (string, string) -> string, es: seq<Entry>): (jobs: seq<Job>)
    ensures |jobs| == |es|
  {
    seq(|es|, i requires 0 <= i < |es| => JobFor(bucket, localDir, join, es[i]))
  }

  lemma JobsForSnoc(bucket: string, localDir: string, join: (string, string) -> string, es: seq<Entry>, e: Entry)
    ensures JobsFor(bucket, localDir, join, es + [e])
         == JobsFor(bucket, localDir, join, es) + [JobFor(bucket, localDir, join, e)]
  {
  }

  /** The jobs of a prefix of the entries are a prefix of the jobs. */
  lemma JobsForPrefix(bucket: string, localDir: string, join: (string, string) -> string, es: seq<Entry>, all: seq<Entry>)
    requires es <= all
    ensures JobsFor(bucket, localDir, join, es) == JobsFor(bucket, localDir, join, all)[..|es|]
  {
  }

  /** Jobs as they travel on the todo channel; None is the nil stop signal. */
  function Queued(jobs: seq<Job>): (q: seq<Option<Job>>)
    ensures |q| == |jobs|
  {
    seq(|jobs|, i requires 0 <= i < |jobs| => Some(jobs[i]))
  }

  lemma QueuedSnoc(jobs: seq<Job>, j: Job)
    ensures Queued(jobs + [j]) == Queued(jobs) + [Some(j)]
  {
  }

  function StopSignals(): (s: seq<Option<Job>>)
    ensures |s| == NWorkers && forall i :: 0 <= i < |s| ==> s[i] == None
  {
    seq(NWorkers, _ => None)
  }

  /** Index of the first job whose directory cannot be created, or |jobs|. */
  function FirstUnplaceable(jobs: seq<Job>, makeParent: string -> bool): (f: nat)
    ensures f <= |jobs|
    ensures forall i :: 0 <= i < f ==> makeParent(jobs[i].localFilePath)
    ensures f < |jobs| ==> !makeParent(jobs[f].localFilePath)
  {
    if jobs == [] then 0
    else if !makeParent(jobs[0].localFilePath) then 0
    else 1 + FirstUnplaceable(jobs[1..], makeParent)
  }

  lemma FirstUnplaceableAt(jobs: seq<Job>, makeParent: string -> bool, n: nat)
    requires n < |jobs| && !makeParent(jobs[n].localFilePath)
    requires forall i :: 0 <= i < n ==> makeParent(jobs[i].localFilePath)
    ensures FirstUnplaceable(jobs, makeParent) == n
  {
  }

  /**
   * Everything the producer sends: the jobs up to the first directory it
   * cannot create; if there is none, one stop signal per worker after them.
   */
  function ProducerStream(jobs: seq<Job>, makeParent: string -> bool): seq<Option<Job>>
  {
    var f := FirstUnplaceable(jobs, makeParent);
    Queued(jobs[..f]) + (if f == |jobs| then StopSignals() else [])
  }

  /** The producer goroutine, with every send received. */
  method Produce(lst: seq<Entry>, bucket: string, localDir: string, modifiedAfter: int,
                 join: (string, string) -> string, makeParent: string -> bool)
    returns (todo: seq<Option<Job>>)
    ensures todo == ProducerStream(JobsFor(bucket, localDir, join, EligibleEntries(lst, modifiedAfter)), makeParent)
  {
    ghost var all := JobsFor(bucket, localDir, join, EligibleEntries(lst, modifiedAfter));
    todo := [];
    for i := 0 to |lst|
      invariant var done := JobsFor(bucket, localDir, join, EligibleEntries(lst[..i], modifiedAfter));
                && todo == Queued(done)
                && forall k :: 0 <= k < |done| ==> makeParent(done[k].localFilePath)
    {
      var v := lst[i];
      ghost var before := EligibleEntries(lst[..i], modifiedAfter);
      EligibleStep(lst, modifiedAfter, i);
      assert before + [] == before;
      if !(v.lastModified > modifiedAfter) {
        continue;
      }
      if v.size == 0 {
        // directory markers
        continue;
      }
      var path := join(localDir, v.key);
      if !makeParent(path) {
        EligiblePrefix(lst, modifiedAfter, i + 1);
        JobsForPrefix(bucket, localDir, join, before + [v], EligibleEntries(lst, modifiedAfter));
        JobsForPrefix(bucket, localDir, join, before, EligibleEntries(lst, modifiedAfter));
        assert all[|before|] == JobFor(bucket, localDir, join, v);
        FirstUnplaceableAt(all, makeParent, |before|);
        return;
      }
      JobsForSnoc(bucket, localDir, join, before, v);
      QueuedSnoc(JobsFor(bucket, localDir, join, before), JobFor(bucket, localDir, join, v));
      todo := todo + [Some(Job(bucket, v.key, path))];
    }
    assert lst[..|lst|] == lst;
    assert all[..|all|] == all;
    todo := todo + StopSignals();
  }

  /** The jobs a worker pool takes off the todo stream: everything before the first stop signal. */
  function QueuedJobs(todo: seq<Option<Job>>): seq<Job>
  {
    if todo == [] || todo[0].None? then [] else [todo[0].value] + QueuedJobs(todo[1..])
  }

  lemma {:induction false} QueuedJobsOfStream(jobs: seq<Job>, rest: seq<Option<Job>>)
    requires rest == [] || rest[0].None?
    ensures QueuedJobs(Queued(jobs) + rest) == jobs
    decreases |jobs|
  {
    if jobs == [] {
      assert Queued(jobs) + rest == rest;
    } else {
      assert (Queued(jobs) + rest)[1..] == Queued(jobs[1..]) + rest;
      QueuedJobsOfStream(jobs[1..], rest);
    }
  }

  /**
   * The stream is the jobs for the eligible entries, in listing order, each
   * with the bucket, the key and the joined local path; when every
   * directory could be made it ends with exactly NWorkers stop signals.
   */
  lemma ProducerStreamShape(jobs: seq<Job>, makeParent: string -> bool)
    ensures var todo := ProducerStream(jobs, makeParent);
            var f := FirstUnplaceable(jobs, makeParent);
            && QueuedJobs(todo) == jobs[..f]
            && (f == |jobs| ==>
                  && |todo| == |jobs| + NWorkers
                  && (forall i :: 0 <= i < |jobs| ==> todo[i] == Some(jobs[i]))
                  && (forall i :: |jobs| <= i < |todo| ==> todo[i].None?))
            && (f < |jobs| ==> |todo| == f)
  {
    var f := FirstUnplaceable(jobs, makeParent);
    QueuedJobsOfStream(jobs[..f], if f == |jobs| then StopSignals() else []);
  }

  /** What downloadFile reports for one job. */
  datatype Fetch = Fetched(bytes: int) | FetchFailed(reason: string)

  /** A job handed back on the done channel with the size recorded in it. */
  datatype Completion = Completion(job: Job, downloadedSize: int)

  /** downloadFile returns 0 bytes together with any error. */
  function SizeOf(r: Fetch): int
  {
    if r.Fetched? then r.bytes else 0
  }

  /**
   * The worker pool, in queue order: while a worker is alive the next job
   * is taken and completed; a failed download still sends its completion,
   * then ends its worker. (Each worker takes jobs in queue order and stops
   * at its first failure, so job k is taken exactly when fewer failures
   * than workers happened among the jobs before it.)
   */
  function Completions(jobs: seq<Job>, fetch: Job -> Fetch, alive: nat): (done: seq<Completion>)
    ensures |done| <= |jobs|
    ensures forall i {:trigger done[i]} :: 0 <= i < |done| ==> done[i] == Completion(jobs[i], SizeOf(fetch(jobs[i])))
  {
    if jobs == [] || alive == 0 then []
    else
      var r := fetch(jobs[0]);
      [Completion(jobs[0], SizeOf(r))] + Completions(jobs[1..], fetch, if r.FetchFailed? then alive - 1 else alive)
  }

  /** Number of jobs whose download fails. */
  function Failures(jobs: seq<Job>, fetch: Job -> Fetch): nat
  {
    if jobs == [] then 0 else (if fetch(jobs[0]).FetchFailed? then 1 else 0) + Failures(jobs[1..], fetch)
  }

  /**
   * Every job completes exactly when fewer downloads than live workers fail
   * before the last job: the last worker standing takes the last job.
   */
  lemma {:induction false} CompletionsAll(jobs: seq<Job>, fetch: Job -> Fetch, alive: nat)
    ensures |Completions(jobs, fetch, alive)| == |jobs|
        <==> jobs == [] || Failures(jobs[..|jobs| - 1], fetch) < alive
  {
    if jobs != [] && alive != 0 {
      var r := fetch(jobs[0]);
      var alive' := if r.FetchFailed? then alive - 1 else alive;
      CompletionsAll(jobs[1..], fetch, alive');
      if |jobs| > 1 {
        assert jobs[1..][..|jobs[1..]| - 1] == jobs[..|jobs| - 1][1..];
      }
    }
  }

  /**
   * Job k is taken exactly when fewer downloads than live workers fail
   * among the jobs before it.
   */
  lemma {:induction false} CompletionsTaken(jobs: seq<Job>, fetch: Job -> Fetch, alive: nat, k: nat)
    requires k < |jobs|
    ensures k < |Completions(jobs, fetch, alive)| <==> Failures(jobs[..k], fetch) < alive
  {
    if alive != 0 && k != 0 {
      var r := fetch(jobs[0]);
      var alive' := if r.FetchFailed? then alive - 1 else alive;
      CompletionsTaken(jobs[1..], fetch, alive', k - 1);
      assert jobs[..k][1..] == jobs[1..][..k - 1];
    }
  }

  /** Sum of the recorded sizes, in completion order (the aggregator's sum). */
  function SumDownloaded(done: seq<Completion>): int
  {
    if done == [] then 0 else SumDownloaded(done[..|done| - 1]) + done[|done| - 1].downloadedSize
  }

  /** Bytes of the jobs whose download succeeded. */
  function SucceededBytes(jobs: seq<Job>, fetch: Job -> Fetch): int
  {
    if jobs == [] then 0
    else SucceededBytes(jobs[..|jobs| - 1], fetch)
         + (match fetch(jobs[|jobs| - 1]) case Fetched(b) => b case FetchFailed(_) => 0)
  }

  lemma {:induction false} SumDownloadedAppend(a: seq<Completion>, b: seq<Completion>)
    ensures SumDownloaded(a + b) == SumDownloaded(a) + SumDownloaded(b)
    decreases |b|
  {
    if b == [] {
      assert a + b == a;
    } else {
      assert (a + b)[..|a + b| - 1] == a + b[..|b| - 1];
      SumDownloadedAppend(a, b[..|b| - 1]);
    }
  }

  /** The aggregated total does not depend on the order in which downloads finish. */
  lemma {:induction false} SumDownloadedPermutation(a: seq<Completion>, b: seq<Completion>)
    requires multiset(a) == multiset(b)
    ensures SumDownloaded(a) == SumDownloaded(b)
    decreases |a|
  {
    if a == [] {
      assert |b| == |multiset(b)| == 0;
    } else {
      var x := a[|a| - 1];
      var a' := a[..|a| - 1];
      assert a == a' + [x];
      assert x in multiset(b);
      var j :| 0 <= j < |b| && b[j] == x;
      var b' := b[..j] + b[j + 1..];
      assert b == b[..j] + [x] + b[j + 1..];
      assert multiset(b) == multiset(b[..j]) + multiset{x} + multiset(b[j + 1..]);
      assert multiset(a) == multiset(a') + multiset{x};
      assert multiset(b') == multiset(b[..j]) + multiset(b[j + 1..]);
      assert multiset(b') + multiset{x} == multiset(a') + multiset{x};
      assert multiset(b') == multiset(b') + multiset{x} - multiset{x};
      assert multiset(a') == multiset(a') + multiset{x} - multiset{x};
      SumDownloadedPermutation(a', b');
      SumDownloadedAppend(b[..j] + [x], b[j + 1..]);
      SumDownloadedAppend(b[..j], [x]);
      SumDownloadedAppend(b[..j], b[j + 1..]);
      assert [x][..0] == [];
    }
  }

  /** When every job completes, the aggregated total is the bytes of the successful downloads. */
  lemma {:induction false} SumOfCompletions(done: seq<Completion>, jobs: seq<Job>, fetch: Job -> Fetch)
    requires |done| == |jobs|
    requires forall i :: 0 <= i < |done| ==> done[i] == Completion(jobs[i], SizeOf(fetch(jobs[i])))
    ensures SumDownloaded(done) == SucceededBytes(jobs, fetch)
    decreases |jobs|
  {
    if jobs != [] {
      SumOfCompletions(done[..|done| - 1], jobs[..|jobs| - 1], fetch);
    }
  }

  /** The progress percentage after completion number i + 1 of totct. */
  function Percent(i: nat, totct: nat): (p: nat)
    requires i < totct
    ensures p <= 100
  {
    Arithmetic.MulMono(i + 1, totct, 100);
    Arithmetic.DivAtMost((i + 1) * 100, totct, 100);
    (i + 1) * 100 / totct
  }

  lemma PercentMonotone(i: nat, j: nat, totct: nat)
    requires i <= j < totct
    ensures Percent(i, totct) <= Percent(j, totct)
  {
    Arithmetic.MulMono(i + 1, j + 1, 100);
    Arithmetic.DivMono((i + 1) * 100, (j + 1) * 100, totct);
  }

  lemma PercentComplete(totct: nat)
    requires totct > 0
    ensures Percent(totct - 1, totct) == 100
  {
    Arithmetic.DivBounds(totct * 100, totct);
    var q := totct * 100 / totct;
    if q < 100 { Arithmetic.MulMono(q + 1, 100, totct); }
    if q > 100 { Arithmetic.MulMono(101, q, totct); }
  }

  /** The progress bar: one '=' per percent. */
  function Bar(p: nat): (b: string)
    ensures |b| == p && forall k :: 0 <= k < p ==> b[k] == '='
  {
    if p == 0 then "" else Bar(p - 1) + "="
  }

  /** One progress report of the aggregator. */
  datatype ProgressLine = ProgressLine(path: string, fileBytes: int, percent: nat, bar: string, soFar: int, total: int)

  /**
   * The aggregator: receive the completions one by one, add up their sizes
   * and, unless silent, report file, percentage, bar and running total.
   * It stops after totct completions; given fewer it reports those and
   * then waits (the caller records that as a stall).
   */
  method Aggregate(done: seq<Completion>, totct: nat, tot: int, silent: bool)
    returns (sum: int, lines: seq<ProgressLine>)
    requires |done| <= totct
    ensures sum == SumDownloaded(done)
    ensures silent ==> lines == []
    ensures !silent ==> |lines| == |done|
    ensures !silent ==> forall i :: 0 <= i < |done| ==>
      lines[i] == ProgressLine(done[i].job.localFilePath, done[i].downloadedSize,
                               Percent(i, totct), Bar(Percent(i, totct)), SumDownloaded(done[..i + 1]), tot)
  {
    sum := 0;
    lines := [];
    for i := 0 to |done|
      invariant sum == SumDownloaded(done[..i])
      invariant silent ==> lines == []
      invariant !silent ==> |lines| == i
      invariant !silent ==> forall k :: 0 <= k < i ==>
        lines[k] == ProgressLine(done[k].job.localFilePath, done[k].downloadedSize,
                                 Percent(k, totct), Bar(Percent(k, totct)), SumDownloaded(done[..k + 1]), tot)
    {
      assert done[..i + 1][..i] == done[..i];
      sum := sum + done[i].downloadedSize;
      if !silent {
        var prog := (i + 1) * 100 / totct;
        lines := lines + [ProgressLine(done[i].job.localFilePath, done[i].downloadedSize, prog, Bar(prog), sum, tot)];
      }
    }
    assert done[..|done|] == done;
  }

  /** How downloadBucket ends. */
  datatype BucketOutcome =
    | Downloaded(bytes: int)
    | ListingFailed(error: ListError)
      // fewer completions than eligible objects arrived: downloadBucket never returns
    | Stalled(received: nat)

  /** The outcome once the listing is in hand. */
  function RunOutcome(jobs: seq<Job>, makeParent: string -> bool, fetch: Job -> Fetch): BucketOutcome
  {
    var done := Completions(jobs[..FirstUnplaceable(jobs, makeParent)], fetch, NWorkers);
    if |done| < |jobs| then Stalled(|done|) else Downloaded(SumDownloaded(done))
  }

  /**
   * downloadBucket, sequential view: list the bucket, count the eligible
   * objects, produce the job stream, let the pool complete jobs and
   * aggregate the completions. The order in which completions reach the
   * aggregator over the done channel is chosen by `arrival`, which may
   * reorder them in any way but neither drops nor adds one.
   */
  method DownloadBucket(bucket: string, localDir: string, modifiedAfter: int, silent: bool,
                        responses: seq<Response>, join: (string, string) -> string,
                        makeParent: string -> bool, fetch: Job -> Fetch,
                        arrival: seq<Completion> -> seq<Completion>)
    returns (outcome: BucketOutcome, todo: seq<Option<Job>>, lines: seq<ProgressLine>)
    requires Ends(responses)
    requires forall d :: multiset(arrival(d)) == multiset(d)
    ensures ListingResult(responses).Err? ==>
              outcome == ListingFailed(ListingResult(responses).error) && todo == [] && lines == []
    ensures ListingResult(responses).Ok? ==>
              var eligible := EligibleEntries(ListingResult(responses).value, modifiedAfter);
              var jobs := JobsFor(bucket, localDir, join, eligible);
              var done := Completions(jobs[..FirstUnplaceable(jobs, makeParent)], fetch, NWorkers);
              var arrived := arrival(done);
              && todo == ProducerStream(jobs, makeParent)
              && |arrived| == |done| && multiset(arrived) == multiset(done)
              && outcome == RunOutcome(jobs, makeParent, fetch)
              && (silent ==> lines == [])
              && (!silent ==> |lines| == |done|
                              && forall i :: 0 <= i < |done| ==>
                                   lines[i] == ProgressLine(arrived[i].job.localFilePath, arrived[i].downloadedSize,
                                                            Percent(i, |jobs|), Bar(Percent(i, |jobs|)),
                                                            SumDownloaded(arrived[..i + 1]), TotalSize(eligible)))
  {
    var listed, _ := Paginate(bucket, None, responses);
    if listed.Err? {
      return ListingFailed(listed.error), [], [];
    }
    var totct, tot := CountEligible(listed.value, modifiedAfter);
    todo := Produce(listed.value, bucket, localDir, modifiedAfter, join, makeParent);
    ghost var jobs := JobsFor(bucket, localDir, join, EligibleEntries(listed.value, modifiedAfter));
    ProducerStreamShape(jobs, makeParent);
    var done := Completions(QueuedJobs(todo), fetch, NWorkers);
    var arrived := arrival(done);
    assert |arrived| == |multiset(arrived)| == |multiset(done)| == |done|;
    if |done| < totct {
      var _, received := Aggregate(arrived, totct, tot, silent);
      return Stalled(|done|), todo, received;
    }
    var sum;
    sum, lines := Aggregate(arrived, totct, tot, silent);
    SumDownloadedPermutation(done, arrived);
    return Downloaded(sum), todo, lines;
  }

  /**
   * A bucket download finishes exactly when every directory could be
   * created and fewer downloads than workers fail before the last job.
   */
  lemma RunOutcomeDownloaded(jobs: seq<Job>, makeParent: string -> bool, fetch: Job -> Fetch)
    ensures RunOutcome(jobs, makeParent, fetch).Downloaded?
        <==> FirstUnplaceable(jobs, makeParent) == |jobs|
             && (jobs == [] || Failures(jobs[..|jobs| - 1], fetch) < NWorkers)
  {
    var f := FirstUnplaceable(jobs, makeParent);
    if f < |jobs| {
      assert RunOutcome(jobs, makeParent, fetch).Stalled?;
    } else {
      assert jobs[..f] == jobs;
      CompletionsAll(jobs, fetch, NWorkers);
    }
  }

  /** A finished bucket download returns the bytes of the successful downloads. */
  lemma RunOutcomeBytes(jobs: seq<Job>, makeParent: string -> bool, fetch: Job -> Fetch)
    requires RunOutcome(jobs, makeParent, fetch).Downloaded?
    ensures RunOutcome(jobs, makeParent, fetch).bytes == SucceededBytes(jobs, fetch)
  {
    var f := FirstUnplaceable(jobs, makeParent);
    var sent := jobs[..f];
    var done := Completions(sent, fetch, NWorkers);
    assert |done| == |jobs| == f;
    assert sent == jobs;
    SumOfCompletions(done, jobs, fetch);
  }

  /**
   * A directory that cannot be created means the stop signals are never
   * sent and the aggregator waits for a completion that never comes.
   */
  lemma UnplaceableStalls(jobs: seq<Job>, makeParent: string -> bool, fetch: Job -> Fetch)
    requires FirstUnplaceable(jobs, makeParent) < |jobs|
    ensures RunOutcome(jobs, makeParent, fetch).Stalled?
    ensures RunOutcome(jobs, makeParent, fetch).received <= FirstUnplaceable(jobs, makeParent)
  {
  }

  /** When every download fails, only the first NWorkers jobs are ever taken. */
  lemma {:induction false} AllFailing(jobs: seq<Job>, fetch: Job -> Fetch, alive: nat)
    requires forall j :: j in jobs ==> fetch(j).FetchFailed?
    ensures |Completions(jobs, fetch, alive)| == if |jobs| < alive then |jobs| else alive
  {
    if jobs != [] && alive != 0 {
      var rest := jobs[1..];
      assert fetch(jobs[0]).FetchFailed?;
      forall j | j in rest ensures fetch(j).FetchFailed? {
        assert j in jobs;
      }
      AllFailing(rest, fetch, alive - 1);
      assert |Completions(jobs, fetch, alive)| == 1 + |Completions(rest, fetch, alive - 1)|;
    }
  }

  lemma AllFailingStalls(jobs: seq<Job>, makeParent: string -> bool, fetch: Job -> Fetch)
    requires forall j :: j in jobs ==> makeParent(j.localFilePath) && fetch(j).FetchFailed?
    requires |jobs| > NWorkers
    ensures RunOutcome(jobs, makeParent, fetch) == Stalled(NWorkers)
  {
    var f := FirstUnplaceable(jobs, makeParent);
    assert jobs[..f] == jobs;
    AllFailing(jobs, fetch, NWorkers);
  }

  /** Three objects: A (100 bytes, changed at time 1), B (empty, changed at time 3), C (50 bytes, changed at time 0). */
  function Scenario(): seq<Entry>
  {
    [Entry("A", 100, 1), Entry("B", 0, 3), Entry("C", 50, 0)]
  }

  /** The listing of the scenario is A, then A and B, then A, B and C. */
  lemma ScenarioPrefixes()
    ensures Scenario()[..2] == [Entry("A", 100, 1), Entry("B", 0, 3)]
    ensures Scenario()[..2][..1] == [Entry("A", 100, 1)]
    ensures Scenario()[..2][..1][..0] == []
  {
  }

  /** With the cutoff at time 2, A and C are not after it and B is empty. */
  lemma ScenarioLateCutoff()
    ensures EligibleEntries(Scenario(), 2) == []
  {
    ScenarioPrefixes();
    var l := Scenario();
    assert EligibleEntries(l[..2][..1], 2) == [];
    assert EligibleEntries(l[..2], 2) == [];
  }

  /** With the cutoff at time 0, A alone qualifies: C was changed exactly at the cutoff. */
  lemma ScenarioEarlyCutoff()
    ensures EligibleEntries(Scenario(), 0) == [Entry("A", 100, 1)]
  {
    ScenarioPrefixes();
    var l := Scenario();
    assert EligibleEntries(l[..2][..1], 0) == [Entry("A", 100, 1)];
    assert EligibleEntries(l[..2], 0) == [Entry("A", 100, 1)];
  }

  /**
   * In the three-object scenario nothing is downloaded when the cutoff
   * lies after A and C; with the cutoff at C's time, A alone is, 100 bytes.
   */
  lemma EligibilityScenario()
    ensures EligibleEntries(Scenario(), 2) == []
    ensures EligibleEntries(Scenario(), 0) == [Entry("A", 100, 1)]
    ensures TotalSize(EligibleEntries(Scenario(), 0)) == 100
  {
    ScenarioLateCutoff();
    ScenarioEarlyCutoff();
    assert [Entry("A", 100, 1)][..0] == [];
  }
}

=== FILE: listing.dfy ===
/**
 * Bucket listing: the marker-driven pagination loop of `listBucketFiles`
 * (and its copy inside `SearchBucketFiles`) and the totals that
 * `renderBucketList` prints.
 *
 * The remote list-objects call is not modelled; the provider is a recorded
 * conversation `responses`, whose element k answers the k-th request the
 * loop sends. The loop reports the requests it sent, so the marker rule can
 * be stated: every follow-up request carries the last key of the most
 * recent non-empty page.
 */
module Listing {
  import opened Basics
  import Sizes

  /** One object of a listing; lastModified is in integer ticks since the Unix epoch (nanoseconds, Go's resolution). */
  datatype Entry = Entry(key: string, size: int, lastModified: int)

  /** One page of a list-objects answer. */
  datatype Page = Page(contents: seq<Entry>, truncated: bool)

  datatype Response = Answered(page: Page) | Failed(reason: string)

  /** The arguments of one list-objects request. */
  datatype Request = Request(bucket: string, maxKeys: int, prefix: Option<string>, marker: Option<string>)

  /**
   * Why a listing produced nothing: a request failed, or a follow-up page
   * was empty, where `li.Contents[1:]` is a runtime panic in Go.
   */
  datatype ListError = RequestFailed(reason: string) | EmptyFollowUpPage

  /** Page size asked of the provider on every request. */
  const MaxKeys: int := 10000

  function LastKey(entries: seq<Entry>): string
    requires entries != []
  {
    entries[|entries| - 1].key
  }

  /**
   * Whether the loop sends another request after receiving response k:
   * the answer arrived, it is truncated, and (for a follow-up) it is not
   * empty.
   */
  predicate Continues(responses: seq<Response>, k: nat)
    requires k < |responses|
  {
    && responses[k].Answered?
    && responses[k].page.truncated
    && (k == 0 || responses[k].page.contents != [])
  }

  /** The recorded conversation contains the response that ends the loop. */
  predicate Ends(responses: seq<Response>)
  {
    exists k :: 0 <= k < |responses| && !Continues(responses, k)
  }

  /** The first response at or after `from` that ends the loop. */
  function FirstStop(responses: seq<Response>, from: nat): (k: nat)
    requires exists j :: from <= j < |responses| && !Continues(responses, j)
    ensures from <= k < |responses| && !Continues(responses, k)
    ensures forall j :: from <= j < k ==> Continues(responses, j)
    decreases |responses| - from
  {
    if !Continues(responses, from) then from else FirstStop(responses, from + 1)
  }

  /** Index of the last response the loop reads. */
  function StopIndex(responses: seq<Response>): (k: nat)
    requires Ends(responses)
    ensures k < |responses| && !Continues(responses, k)
    ensures forall j :: 0 <= j < k ==> Continues(responses, j)
  {
    FirstStop(responses, 0)
  }

  /**
   * The marker sent after the responses `received`: the last key of the
   * most recent non-empty page, or the empty string if there was none.
   */
  function MarkerAfter(received: seq<Response>): string
  {
    if received == [] then ""
    else
      var last := received[|received| - 1];
      if last.Answered? && last.page.contents != [] then LastKey(last.page.contents)
      else MarkerAfter(received[..|received| - 1])
  }

  /** The marker of request j: none on the first request. */
  function MarkerOf(responses: seq<Response>, j: nat): Option<string>
    requires j <= |responses|
  {
    if j == 0 then None else Some(MarkerAfter(responses[..j]))
  }

  /** The first n requests of the conversation. */
  function RequestsSent(bucket: string, prefix: Option<string>, responses: seq<Response>, n: nat): (rs: seq<Request>)
    requires n <= |responses|
  {
    seq(n, j requires 0 <= j < n => Request(bucket, MaxKeys, prefix, MarkerOf(responses, j)))
  }

  /** Follow-up responses 1 .. n-1 were answered with non-empty pages. */
  predicate FollowUpsAnswered(responses: seq<Response>, n: nat)
    requires n <= |responses|
  {
    forall j :: 1 <= j < n ==> responses[j].Answered? && responses[j].page.contents != []
  }

  /** The follow-up pages 1 .. n-1, each without its first entry, in order. */
  function Tails(responses: seq<Response>, n: nat): seq<Entry>
    requires n <= |responses| && FollowUpsAnswered(responses, n)
  {
    if n <= 1 then []
    else Tails(responses, n - 1) + responses[n - 1].page.contents[1..]
  }

  /**
   * The outcome of the pagination loop: no listing if the last request
   * failed or an empty follow-up page arrived, otherwise the first page
   * followed by every later page minus its first entry.
   */
  function ListingResult(responses: seq<Response>): Result<seq<Entry>, ListError>
    requires Ends(responses)
  {
    var k := StopIndex(responses);
    match responses[k]
    case Failed(reason) => Err(RequestFailed(reason))
    case Answered(page) =>
      if k > 0 && page.contents == [] then Err(EmptyFollowUpPage)
      else
        assert FollowUpsAnswered(responses, k + 1) by {
          forall j | 1 <= j < k + 1
            ensures responses[j].Answered? && responses[j].page.contents != []
          {
            if j < k { assert Continues(responses, j); }
          }
        }
        Ok(responses[0].page.contents + Tails(responses, k + 1))
  }

  /** The request sent after n responses carries the marker they leave. */
  lemma RequestsSentNext(bucket: string, prefix: Option<string>, responses: seq<Response>, n: nat)
    requires 1 <= n < |responses|
    ensures RequestsSent(bucket, prefix, responses, n) + [Request(bucket, MaxKeys, prefix, Some(MarkerAfter(responses[..n])))]
         == RequestsSent(bucket, prefix, responses, n + 1)
  {
  }

  /** A non-empty page sets the marker to its last key. */
  lemma MarkerAfterNext(responses: seq<Response>, n: nat)
    requires n < |responses| && responses[n].Answered? && responses[n].page.contents != []
    ensures MarkerAfter(responses[..n + 1]) == LastKey(responses[n].page.contents)
  {
    assert responses[..n + 1][n] == responses[n];
  }

  /**
   * The state of the pagination loop after n responses: the listing so far,
   * the marker for the next request and the requests sent.
   */
  predicate PaginateProgress(bucket: string, prefix: Option<string>, responses: seq<Response>, n: nat,
                             lst: seq<Entry>, marker: string, requests: seq<Request>)
  {
    && 1 <= n <= |responses|
    && responses[0].Answered?
    && FollowUpsAnswered(responses, n)
    && marker == MarkerAfter(responses[..n])
    && lst == responses[0].page.contents + Tails(responses, n)
    && requests == RequestsSent(bucket, prefix, responses, n)
  }

  /** A non-empty follow-up page advances the loop by one response. */
  lemma PaginateNext(bucket: string, prefix: Option<string>, responses: seq<Response>, n: nat,
                     lst: seq<Entry>, marker: string, requests: seq<Request>)
    requires PaginateProgress(bucket, prefix, responses, n, lst, marker, requests)
    requires n < |responses| && responses[n].Answered? && responses[n].page.contents != []
    ensures PaginateProgress(bucket, prefix, responses, n + 1,
                             lst + responses[n].page.contents[1..],
                             LastKey(responses[n].page.contents),
                             requests + [Request(bucket, MaxKeys, prefix, Some(marker))])
  {
    RequestsSentNext(bucket, prefix, responses, n);
    MarkerAfterNext(responses, n);
  }

  /**
   * listBucketFiles / SearchBucketFiles: request the first page, then keep
   * requesting with the last key seen as marker while the latest page is
   * truncated, appending each follow-up page minus its first entry.
   */
  method Paginate(bucket: string, prefix: Option<string>, responses: seq<Response>)
    returns (result: Result<seq<Entry>, ListError>, requests: seq<Request>)
    requires Ends(responses)
    ensures requests == RequestsSent(bucket, prefix, responses, StopIndex(responses) + 1)
    ensures result == ListingResult(responses)
  {
    ghost var k := StopIndex(responses);
    requests := [Request(bucket, MaxKeys, prefix, None)];
    var li := responses[0];
    if li.Failed? {
      return Err(RequestFailed(li.reason)), requests;
    }
    var lst := li.page.contents;
    var marker := "";
    if |li.page.contents| != 0 {
      marker := LastKey(li.page.contents);
    }
    assert responses[..1] == [li];
    var n := 1;
    while li.page.truncated
      invariant n <= k + 1
      invariant PaginateProgress(bucket, prefix, responses, n, lst, marker, requests)
      invariant li == responses[n - 1] && li.Answered?
      invariant li.page.truncated <==> n - 1 < k
      decreases k + 1 - n
    {
      ghost var before := requests;
      RequestsSentNext(bucket, prefix, responses, n);
      requests := requests + [Request(bucket, MaxKeys, prefix, Some(marker))];
      assert n < k ==> Continues(responses, n);
      li := responses[n];
      if li.Failed? {
        return Err(RequestFailed(li.reason)), requests;
      }
      if |li.page.contents| == 0 {
        // `li.Contents[1:]` on an empty page: slice bounds out of range
        return Err(EmptyFollowUpPage), requests;
      }
      PaginateNext(bucket, prefix, responses, n, lst, marker, before);
      lst := lst + li.page.contents[1..];
      if |li.page.contents| != 0 {
        marker := LastKey(li.page.contents);
      }
      n := n + 1;
    }
    return Ok(lst), requests;
  }

  /** Sum of the sizes of a listing, in listing order. */
  function TotalSize(entries: seq<Entry>): int
  {
    if entries == [] then 0 else TotalSize(entries[..|entries| - 1]) + entries[|entries| - 1].size
  }

  /** What renderBucketList reports above its table. */
  datatype Summary = Summary(count: nat, total: int, totalText: string)

  /** renderBucketList: count the entries and add up their sizes. */
  method RenderTotals(lst: seq<Entry>) returns (summary: Summary)
    ensures summary.count == |lst|
    ensures summary.total == TotalSize(lst)
    ensures summary.totalText == Sizes.FormatFileSize(TotalSize(lst))
  {
    var sum := 0;
    for i := 0 to |lst|
      invariant sum == TotalSize(lst[..i])
    {
      assert lst[..i + 1][..i] == lst[..i];
      sum := sum + lst[i].size;
    }
    assert lst[..|lst|] == lst;
    summary := Summary(|lst|, sum, Sizes.FormatFileSize(sum));
  }

  /**
   * ListBucketFiles (prefix None) and SearchBucketFiles (prefix Some): list
   * the bucket, then report its totals; an error is printed instead.
   */
  method ListAndRender(bucket: string, prefix: Option<string>, responses: seq<Response>)
    returns (shown: Result<Summary, ListError>, requests: seq<Request>)
    requires Ends(responses)
    ensures requests == RequestsSent(bucket, prefix, responses, StopIndex(responses) + 1)
    ensures shown.Err? <==> ListingResult(responses).Err?
    ensures shown.Err? ==> shown.error == ListingResult(responses).error
    ensures shown.Ok? ==> && shown.value.count == |ListingResult(responses).value|
                          && shown.value.total == TotalSize(ListingResult(responses).value)
  {
    var listed;
    listed, requests := Paginate(bucket, prefix, responses);
    if listed.Err? {
      return Err(listed.error), requests;
    }
    var summary := RenderTotals(listed.value);
    return Ok(summary), requests;
  }

  /** Number of entries in responses 0 .. n-1. */
  function EntriesReceived(responses: seq<Response>, n: nat): nat
    requires n <= |responses|
    requires forall j :: 0 <= j < n ==> responses[j].Answered?
  {
    if n == 0 then 0 else EntriesReceived(responses, n - 1) + |responses[n - 1].page.contents|
  }

  lemma {:induction false} TailsLength(responses: seq<Response>, n: nat)
    requires 1 <= n <= |responses| && FollowUpsAnswered(responses, n)
    requires responses[0].Answered?
    ensures |Tails(responses, n)| == EntriesReceived(responses, n) - |responses[0].page.contents| - (n - 1)
  {
    if n > 1 {
      TailsLength(responses, n - 1);
    }
  }

  /**
   * A successful listing holds every entry received, less one per
   * follow-up page: its first entry.
   */
  lemma ListingLength(responses: seq<Response>)
    requires Ends(responses) && ListingResult(responses).Ok?
    ensures var k := StopIndex(responses);
            && (forall j :: 0 <= j <= k ==> responses[j].Answered?)
            && |ListingResult(responses).value| == EntriesReceived(responses, k + 1) - k
  {
    var k := StopIndex(responses);
    forall j | 0 <= j < k ensures responses[j].Answered? {
      assert Continues(responses, j);
    }
    assert FollowUpsAnswered(responses, k + 1) by {
      forall j | 1 <= j < k + 1
        ensures responses[j].Answered? && responses[j].page.contents != []
      {
        if j < k { assert Continues(responses, j); }
      }
    }
    TailsLength(responses, k + 1);
  }

  /** Any failed request leaves no listing at all, whatever came before. */
  lemma FailedRequestGivesNoListing(responses: seq<Response>)
    requires Ends(responses) && responses[StopIndex(responses)].Failed?
    ensures ListingResult(responses) == Err(RequestFailed(responses[StopIndex(responses)].reason))
  {
  }

  // A provider that answers from a fixed bucket, for stating what the
  // pagination recovers.

  /** Keys are unique within a bucket. */
  predicate UniqueKeys(objects: seq<Entry>)
  {
    forall i, j :: 0 <= i < j < |objects| ==> objects[i].key != objects[j].key
  }

  /** Position of the first object with this key, or |objects| if none has it. */
  function KeyIndex(objects: seq<Entry>, key: string): (i: nat)
    ensures i <= |objects|
    ensures i < |objects| ==> objects[i].key == key
    ensures forall j :: 0 <= j < i ==> objects[j].key != key
  {
    if objects == [] then 0
    else if objects[0].key == key then 0
    else 1 + KeyIndex(objects[1..], key)
  }

  lemma KeyIndexOfUnique(objects: seq<Entry>, i: nat)
    requires UniqueKeys(objects) && i < |objects|
    ensures KeyIndex(objects, objects[i].key) == i
  {
  }

  function Min(a: int, b: int): int
  {
    if a < b then a else b
  }

  /** Up to pageSize objects from position start; truncated if more follow. */
  function PageFrom(objects: seq<Entry>, start: nat, pageSize: nat): Response
    requires start <= |objects|
  {
    Answered(Page(objects[start..Min(start + pageSize, |objects|)], start + pageSize < |objects|))
  }

  /** A provider whose marker is inclusive: listing resumes AT the marker's key. */
  function InclusiveAnswer(objects: seq<Entry>, pageSize: nat, marker: Option<string>): Response
  {
    PageFrom(objects, if marker.None? then 0 else KeyIndex(objects, marker.value), pageSize)
  }

  /** Response j is that provider's answer to request j. */
  predicate AnsweredInclusively(objects: seq<Entry>, pageSize: nat, responses: seq<Response>, j: nat)
    requires j < |responses|
  {
    responses[j] == InclusiveAnswer(objects, pageSize, MarkerOf(responses, j))
  }

  /** Every response the loop reads is that provider's answer to the request sent. */
  predicate InclusiveConversation(objects: seq<Entry>, pageSize: nat, responses: seq<Response>)
    requires Ends(responses)
  {
    forall j :: 0 <= j <= StopIndex(responses) ==> AnsweredInclusively(objects, pageSize, responses, j)
  }

  /** The marker after a full page is its last key, so the provider resumes there. */
  lemma InclusiveNextPage(objects: seq<Entry>, pageSize: nat, responses: seq<Response>, j: nat, start: nat)
    requires UniqueKeys(objects) && pageSize >= 2
    requires j + 1 < |responses|
    requires responses[j + 1] == InclusiveAnswer(objects, pageSize, MarkerOf(responses, j + 1))
    requires start + pageSize < |objects|
    requires responses[j] == PageFrom(objects, start, pageSize)
    ensures responses[j + 1] == PageFrom(objects, start + pageSize - 1, pageSize)
  {
    var next := start + pageSize - 1;
    var page := objects[start..start + pageSize];
    assert responses[j].page.contents == page;
    assert page[|page| - 1] == objects[next];
    var received := responses[..j + 1];
    assert received[|received| - 1] == responses[j];
    assert MarkerAfter(received) == objects[next].key;
    KeyIndexOfUnique(objects, next);
  }

  /**
   * After response j, read from `start`, the listing so far is the bucket
   * up to the end of that page.
   */
  predicate InclusiveProgress(objects: seq<Entry>, pageSize: nat, responses: seq<Response>, j: nat, start: nat)
  {
    && j < |responses|
    && start <= |objects| && (j > 0 ==> start < |objects|)
    && responses[j] == PageFrom(objects, start, pageSize)
    && FollowUpsAnswered(responses, j + 1) && responses[0].Answered?
    && responses[0].page.contents + Tails(responses, j + 1) == objects[..Min(start + pageSize, |objects|)]
  }

  /** When the loop stops on a page from the bucket, the listing so far is the result. */
  lemma InclusiveLastPage(objects: seq<Entry>, pageSize: nat, responses: seq<Response>, start: nat)
    requires pageSize >= 2 && Ends(responses)
    requires InclusiveProgress(objects, pageSize, responses, StopIndex(responses), start)
    ensures ListingResult(responses) == Ok(objects)
  {
    var k := StopIndex(responses);
    assert k > 0 ==> responses[k].page.contents != [];
    assert !responses[k].page.truncated;
    assert objects[..|objects|] == objects;
  }

  lemma SplitSlice(objects: seq<Entry>, mid: nat, end: nat)
    requires mid <= end <= |objects|
    ensures objects[..mid] + objects[mid..end] == objects[..end]
  {
  }

  /** Appending a page that starts at the previous page's last object extends the listing to that page's end. */
  lemma AppendOverlappingPage(objects: seq<Entry>, pageSize: nat, responses: seq<Response>, j: nat, next: nat)
    requires pageSize >= 1 && j + 2 <= |responses| && next < |objects|
    requires responses[j + 1] == PageFrom(objects, next, pageSize)
    requires FollowUpsAnswered(responses, j + 1) && responses[0].Answered?
    requires responses[0].page.contents + Tails(responses, j + 1) == objects[..next + 1]
    ensures FollowUpsAnswered(responses, j + 2)
    ensures responses[0].page.contents + Tails(responses, j + 2) == objects[..Min(next + pageSize, |objects|)]
  {
    var end := Min(next + pageSize, |objects|);
    var tail := responses[j + 1].page.contents;
    assert tail[1..] == objects[next + 1..end];
    assert FollowUpsAnswered(responses, j + 2) by {
      forall i | 1 <= i < j + 2
        ensures responses[i].Answered? && responses[i].page.contents != []
      {
        if i == j + 1 {
          assert responses[i].page.contents == tail && tail != [];
        }
      }
    }
    assert Tails(responses, j + 2) == Tails(responses, j + 1) + tail[1..];
    SplitSlice(objects, next + 1, end);
  }

  /** One more request: the accumulated listing grows to the end of the next page. */
  lemma InclusiveStep(objects: seq<Entry>, pageSize: nat, responses: seq<Response>, j: nat, start: nat)
    requires UniqueKeys(objects) && pageSize >= 2
    requires Ends(responses) && InclusiveConversation(objects, pageSize, responses)
    requires j < StopIndex(responses)
    requires InclusiveProgress(objects, pageSize, responses, j, start)
    ensures start + pageSize - 1 < |objects|
    ensures InclusiveProgress(objects, pageSize, responses, j + 1, start + pageSize - 1)
  {
    assert Continues(responses, j);
    assert AnsweredInclusively(objects, pageSize, responses, j + 1);
    InclusiveNextPage(objects, pageSize, responses, j, start);
    AppendOverlappingPage(objects, pageSize, responses, j, start + pageSize - 1);
  }

  lemma {:induction false} InclusiveFrom(objects: seq<Entry>, pageSize: nat, responses: seq<Response>, j: nat, start: nat)
    requires UniqueKeys(objects) && pageSize >= 2
    requires Ends(responses) && InclusiveConversation(objects, pageSize, responses)
    requires j <= StopIndex(responses)
    requires InclusiveProgress(objects, pageSize, responses, j, start)
    ensures ListingResult(responses) == Ok(objects)
    decreases StopIndex(responses) - j
  {
    if j == StopIndex(responses) {
      InclusiveLastPage(objects, pageSize, responses, start);
    } else {
      InclusiveStep(objects, pageSize, responses, j, start);
      InclusiveFrom(objects, pageSize, responses, j + 1, start + pageSize - 1);
    }
  }

  /**
   * Dropping the first entry of every follow-up page is exact for a
   * provider whose marker is inclusive: the listing is the whole bucket,
   * each object once and in order.
   */
  lemma InclusiveMarkerListsEveryObject(objects: seq<Entry>, pageSize: nat, responses: seq<Response>)
    requires UniqueKeys(objects) && pageSize >= 2
    requires Ends(responses) && InclusiveConversation(objects, pageSize, responses)
    ensures ListingResult(responses) == Ok(objects)
  {
    assert AnsweredInclusively(objects, pageSize, responses, 0);
    InclusiveFrom(objects, pageSize, responses, 0, 0);
  }

  /** A provider whose marker is exclusive: listing resumes AFTER the marker's key. */
  function ExclusiveAnswer(objects: seq<Entry>, pageSize: nat, marker: Option<string>): Response
  {
    PageFrom(objects, if marker.None? then 0 else Min(KeyIndex(objects, marker.value) + 1, |objects|), pageSize)
  }

  /** Response j is the exclusive provider's answer to request j. */
  predicate AnsweredExclusively(objects: seq<Entry>, pageSize: nat, responses: seq<Response>, j: nat)
    requires j < |responses|
  {
    responses[j] == ExclusiveAnswer(objects, pageSize, MarkerOf(responses, j))
  }

  predicate ExclusiveConversation(objects: seq<Entry>, pageSize: nat, responses: seq<Response>)
    requires Ends(responses)
  {
    forall j :: 0 <= j <= StopIndex(responses) ==> AnsweredExclusively(objects, pageSize, responses, j)
  }

  /** With unique keys, an object occurs in no slice of the bucket that leaves out its position. */
  lemma NotInSlice(objects: seq<Entry>, p: nat, lo: nat, hi: nat)
    requires UniqueKeys(objects) && p < |objects| && lo <= hi <= |objects|
    requires p < lo || hi <= p
    ensures objects[p] !in objects[lo..hi]
  {
  }

  /** The exclusive provider resumes right after the last object of a full page. */
  lemma ExclusiveNextPage(objects: seq<Entry>, pageSize: nat, responses: seq<Response>, j: nat, start: nat)
    requires UniqueKeys(objects) && pageSize >= 1
    requires j + 1 < |responses|
    requires AnsweredExclusively(objects, pageSize, responses, j + 1)
    requires start + pageSize < |objects|
    requires responses[j] == PageFrom(objects, start, pageSize)
    ensures responses[j + 1] == PageFrom(objects, start + pageSize, pageSize)
  {
    var last := start + pageSize - 1;
    var page := objects[start..start + pageSize];
    assert responses[j].page.contents == page;
    assert page[|page| - 1] == objects[last];
    var received := responses[..j + 1];
    assert received[|received| - 1] == responses[j];
    assert MarkerAfter(received) == objects[last].key;
    KeyIndexOfUnique(objects, last);
  }

  /** Appending a page that starts after the previous one drops that page's first object. */
  lemma AppendAdjacentPage(objects: seq<Entry>, pageSize: nat, responses: seq<Response>, j: nat, next: nat, lost: nat)
    requires UniqueKeys(objects) && pageSize >= 1 && j + 2 <= |responses|
    requires lost <= next < |objects|
    requires responses[j + 1] == PageFrom(objects, next, pageSize)
    requires FollowUpsAnswered(responses, j + 1) && responses[0].Answered?
    requires var acc := responses[0].page.contents + Tails(responses, j + 1);
             objects[lost] !in acc && |acc| == next - j
    ensures FollowUpsAnswered(responses, j + 2)
    ensures var acc := responses[0].page.contents + Tails(responses, j + 2);
            objects[lost] !in acc && |acc| == Min(next + pageSize, |objects|) - (j + 1)
  {
    var end := Min(next + pageSize, |objects|);
    var tail := responses[j + 1].page.contents;
    assert tail[1..] == objects[next + 1..end];
    assert FollowUpsAnswered(responses, j + 2) by {
      forall i | 1 <= i < j + 2
        ensures responses[i].Answered? && responses[i].page.contents != []
      {
        if i == j + 1 {
          assert responses[i].page.contents == tail && tail != [];
        }
      }
    }
    assert Tails(responses, j + 2) == Tails(responses, j + 1) + tail[1..];
    NotInSlice(objects, lost, next + 1, end);
  }

  /**
   * After response j (a page of the bucket from position start), the
   * exclusive conversation has so far lost the object at pageSize and
   * exactly one object per follow-up.
   */
  predicate ExclusiveProgress(objects: seq<Entry>, pageSize: nat, responses: seq<Response>, j: nat, start: nat)
  {
    && pageSize >= 1 && 1 <= j < |responses|
    && pageSize <= start < |objects|
    && responses[j] == PageFrom(objects, start, pageSize)
    && FollowUpsAnswered(responses, j + 1) && responses[0].Answered?
    && var acc := responses[0].page.contents + Tails(responses, j + 1);
       objects[pageSize] !in acc && |acc| == Min(start + pageSize, |objects|) - j
  }

  /** The loop stops on a non-empty, untruncated page: the listing is what was accumulated. */
  lemma ExclusiveLastPage(objects: seq<Entry>, pageSize: nat, responses: seq<Response>, start: nat)
    requires Ends(responses) && StopIndex(responses) >= 1
    requires ExclusiveProgress(objects, pageSize, responses, StopIndex(responses), start)
    ensures ListingResult(responses).Ok?
    ensures objects[pageSize] !in ListingResult(responses).value
    ensures |ListingResult(responses).value| == |objects| - StopIndex(responses)
  {
    var k := StopIndex(responses);
    assert responses[k].page.contents != [];
    assert !responses[k].page.truncated;
    assert ListingResult(responses) == Ok(responses[0].page.contents + Tails(responses, k + 1));
  }

  /** One more request against the exclusive provider. */
  lemma ExclusiveStep(objects: seq<Entry>, pageSize: nat, responses: seq<Response>, j: nat, start: nat)
    requires UniqueKeys(objects)
    requires Ends(responses) && ExclusiveConversation(objects, pageSize, responses)
    requires j < StopIndex(responses)
    requires ExclusiveProgress(objects, pageSize, responses, j, start)
    ensures start + pageSize < |objects|
    ensures ExclusiveProgress(objects, pageSize, responses, j + 1, start + pageSize)
  {
    assert Continues(responses, j);
    assert AnsweredExclusively(objects, pageSize, responses, j + 1);
    ExclusiveNextPage(objects, pageSize, responses, j, start);
    AppendAdjacentPage(objects, pageSize, responses, j, start + pageSize, pageSize);
  }

  lemma {:induction false} ExclusiveFrom(objects: seq<Entry>, pageSize: nat, responses: seq<Response>, j: nat, start: nat)
    requires UniqueKeys(objects)
    requires Ends(responses) && ExclusiveConversation(objects, pageSize, responses)
    requires j <= StopIndex(responses)
    requires ExclusiveProgress(objects, pageSize, responses, j, start)
    ensures ListingResult(responses).Ok?
    ensures objects[pageSize] !in ListingResult(responses).value
    ensures |ListingResult(responses).value| == |objects| - StopIndex(responses)
    decreases StopIndex(responses) - j
  {
    if j == StopIndex(responses) {
      ExclusiveLastPage(objects, pageSize, responses, start);
    } else {
      ExclusiveStep(objects, pageSize, responses, j, start);
      ExclusiveFrom(objects, pageSize, responses, j + 1, start + pageSize);
    }
  }

  /**
   * The same loop against a provider whose marker is exclusive loses the
   * first object of every follow-up page: one object per extra request,
   * starting with the first object of the second page.
   */
  lemma ExclusiveMarkerLosesObjects(objects: seq<Entry>, pageSize: nat, responses: seq<Response>)
    requires UniqueKeys(objects) && pageSize >= 1
    requires Ends(responses) && ExclusiveConversation(objects, pageSize, responses)
    ensures ListingResult(responses).Ok?
    ensures |ListingResult(responses).value| == |objects| - StopIndex(responses)
    ensures |objects| > pageSize ==> objects[pageSize] !in ListingResult(responses).value
  {
    var k := StopIndex(responses);
    assert AnsweredExclusively(objects, pageSize, responses, 0);
    assert responses[0] == PageFrom(objects, 0, pageSize);
    if k == 0 {
      assert !responses[0].page.truncated;
      assert objects[..|objects|] == objects;
    } else {
      assert Continues(responses, 0);
      assert AnsweredExclusively(objects, pageSize, responses, 1);
      ExclusiveNextPage(objects, pageSize, responses, 0, 0);
      NotInSlice(objects, pageSize, 0, pageSize);
      AppendAdjacentPage(objects, pageSize, responses, 0, pageSize, pageSize);
      ExclusiveFrom(objects, pageSize, responses, 1, pageSize);
    }
  }
}

=== FILE: shell.dfy ===
/**
 * The interactive shell: `getCommand` turns one input line into a command
 * name and its arguments, `exec` chooses what to do with them.
 *
 * Reading standard input, the `newline` constant of the platform and date
 * parsing are outside the model: the line and `newline` are parameters,
 * date parsing is a partial function `parseDate`.
 */
module Shell {
  import opened Basics

  /** strings.Trim: drop every leading and trailing character that is in cut. */
  function Trim(s: string, cut: set<char>): (r: string)
    ensures |r| <= |s|
    ensures r == [] || (r[0] !in cut && r[|r| - 1] !in cut)
    decreases |s|
  {
    if s == [] then []
    else if s[0] in cut then Trim(s[1..], cut)
    else if s[|s| - 1] in cut then Trim(s[..|s| - 1], cut)
    else s
  }

  /**
   * Trim keeps exactly the slice s[lo..hi] whose outside consists of cut
   * characters and whose first and last characters are not cut characters.
   */
  lemma {:induction false} TrimIsSlice(s: string, cut: set<char>, lo: nat, hi: nat)
    requires lo <= hi <= |s|
    requires forall k :: 0 <= k < lo ==> s[k] in cut
    requires forall k :: hi <= k < |s| ==> s[k] in cut
    requires lo == hi || (s[lo] !in cut && s[hi - 1] !in cut)
    ensures Trim(s, cut) == s[lo..hi]
    decreases |s|
  {
    if s == [] {
    } else if s[0] in cut {
      var t := s[1..];
      if lo == 0 {
        assert hi == 0;
        forall k | 0 <= k < |t| ensures t[k] in cut {
          assert t[k] == s[k + 1];
        }
        TrimIsSlice(t, cut, 0, 0);
      } else {
        forall k | 0 <= k < lo - 1 ensures t[k] in cut {
          assert t[k] == s[k + 1];
        }
        forall k | hi - 1 <= k < |t| ensures t[k] in cut {
          assert t[k] == s[k + 1];
        }
        assert lo - 1 == hi - 1 || (t[lo - 1] !in cut && t[hi - 2] !in cut);
        TrimIsSlice(t, cut, lo - 1, hi - 1);
        assert t[lo - 1..hi - 1] == s[lo..hi];
      }
    } else if s[|s| - 1] in cut {
      var t := s[..|s| - 1];
      assert lo == 0 && 0 < hi < |s|;
      forall k | hi <= k < |t| ensures t[k] in cut {
        assert t[k] == s[k];
      }
      TrimIsSlice(t, cut, lo, hi);
      assert t[lo..hi] == s[lo..hi];
    } else {
      assert lo == 0 && hi == |s|;
      assert s[lo..hi] == s;
    }
  }

  /** strings.IndexRune for a character the string contains. */
  function IndexOf(s: string, c: char): (k: nat)
    requires c in s
    ensures k < |s| && s[k] == c && c !in s[..k]
  {
    if s[0] == c then 0
    else
      var k := 1 + IndexOf(s[1..], c);
      assert s[..k] == [s[0]] + s[1..][..k - 1];
      k
  }

  /** Put p in front of the first piece. */
  function Prepend(p: string, pieces: seq<string>): seq<string>
    requires |pieces| >= 1
  {
    [p + pieces[0]] + pieces[1..]
  }

  lemma PrependEmpty(pieces: seq<string>)
    requires |pieces| >= 1
    ensures Prepend([], pieces) == pieces
  {
    assert [] + pieces[0] == pieces[0];
    assert [pieces[0]] + pieces[1..] == pieces;
  }

  lemma PrependSingle(p: string)
    ensures Prepend(p, [[]]) == [p]
  {
    var e: string := [];
    assert [e][0] == e && [e][1..] == [];
    assert p + e == p;
  }

  lemma PrependCons(p: string, a: string, rest: seq<string>)
    ensures Prepend(p, [a] + rest) == [p + a] + rest
  {
    assert ([a] + rest)[1..] == rest;
  }

  /**
   * The raw pieces of s between the spaces that are outside quotes; a
   * double quote toggles the quoted state and stays in its piece.
   */
  function SplitUnquoted(s: string, quoted: bool): (pieces: seq<string>)
    ensures |pieces| >= 1
    decreases |s|
  {
    if s == [] then [[]]
    else if s[0] == ' ' && !quoted then [[]] + SplitUnquoted(s[1..], false)
    else Prepend([s[0]], SplitUnquoted(s[1..], if s[0] == '"' then !quoted else quoted))
  }

  /** strings.Join. */
  function Join(pieces: seq<string>, sep: char): string
  {
    if pieces == [] then []
    else if |pieces| == 1 then pieces[0]
    else pieces[0] + [sep] + Join(pieces[1..], sep)
  }

  lemma JoinPrepend(p: string, pieces: seq<string>, sep: char)
    requires |pieces| >= 1
    ensures Join(Prepend(p, pieces), sep) == p + Join(pieces, sep)
  {
    var q := Prepend(p, pieces);
    if |pieces| > 1 {
      assert q[1..] == pieces[1..];
    }
  }

  /** Joining the pieces with single spaces gives back the text. */
  lemma {:induction false} SplitJoin(s: string, quoted: bool)
    ensures Join(SplitUnquoted(s, quoted), ' ') == s
    decreases |s|
  {
    if s == [] {
    } else if s[0] == ' ' && !quoted {
      var rest := SplitUnquoted(s[1..], false);
      SplitJoin(s[1..], false);
      assert ([[]] + rest)[1..] == rest;
      assert s == [' '] + s[1..];
    } else {
      var rest := SplitUnquoted(s[1..], if s[0] == '"' then !quoted else quoted);
      SplitJoin(s[1..], if s[0] == '"' then !quoted else quoted);
      JoinPrepend([s[0]], rest, ' ');
      assert s == [s[0]] + s[1..];
    }
  }

  /** Number of double quotes in s. */
  function QuoteCount(s: string): nat
  {
    if s == [] then 0 else QuoteCount(s[..|s| - 1]) + (if s[|s| - 1] == '"' then 1 else 0)
  }

  /** Position i of s holds a space with an even number of quotes before it. */
  predicate IsSeparator(s: string, i: nat)
    requires i < |s|
  {
    s[i] == ' ' && QuoteCount(s[..i]) % 2 == 0
  }

  /** Number of separators among the first n positions of s. */
  function Separators(s: string, n: nat): nat
    requires n <= |s|
  {
    if n == 0 then 0 else Separators(s, n - 1) + (if IsSeparator(s, n - 1) then 1 else 0)
  }

  lemma {:induction false} SplitCountFrom(s: string, i: nat)
    requires i <= |s|
    ensures |SplitUnquoted(s[i..], QuoteCount(s[..i]) % 2 == 1)| == Separators(s, |s|) - Separators(s, i) + 1
    decreases |s| - i
  {
    if i < |s| {
      var quoted := QuoteCount(s[..i]) % 2 == 1;
      assert s[..i + 1][..i] == s[..i];
      assert s[i..][1..] == s[i + 1..];
      SplitCountFrom(s, i + 1);
      SeparatorsMonotone(s, i + 1, |s|);
    } else {
      assert s[i..] == [];
    }
  }

  lemma {:induction false} SeparatorsMonotone(s: string, i: nat, j: nat)
    requires i <= j <= |s|
    ensures Separators(s, i) <= Separators(s, j)
    decreases j - i
  {
    if i < j {
      SeparatorsMonotone(s, i, j - 1);
    }
  }

  lemma {:induction false} QuoteCountAppend(a: string, b: string)
    ensures QuoteCount(a + b) == QuoteCount(a) + QuoteCount(b)
    decreases |b|
  {
    if b != [] {
      assert (a + b)[..|a + b| - 1] == a + b[..|b| - 1];
      QuoteCountAppend(a, b[..|b| - 1]);
    } else {
      assert a + b == a;
    }
  }

  /** Position in the joined text of the space after piece i. */
  function Boundary(pieces: seq<string>, i: nat): nat
    requires i < |pieces|
  {
    |Join(pieces[..i + 1], ' ')|
  }

  /** Position p of s holds a space outside quotes, the quotes counted from state `quoted`. */
  predicate SeparatorFrom(s: string, quoted: bool, p: nat)
  {
    p < |s| && s[p] == ' ' && (QuoteCount(s[..p]) % 2 == 1) == quoted
  }

  lemma BoundaryPrepend(p: string, pieces: seq<string>, i: nat)
    requires i < |pieces|
    ensures Boundary(Prepend(p, pieces), i) == |p| + Boundary(pieces, i)
  {
    assert Prepend(p, pieces)[..i + 1] == Prepend(p, pieces[..i + 1]);
    JoinPrepend(p, pieces[..i + 1], ' ');
  }

  lemma BoundaryAfterEmpty(pieces: seq<string>, i: nat)
    requires 1 <= i <= |pieces|
    ensures Boundary([[]] + pieces, i) == 1 + Boundary(pieces, i - 1)
  {
    var e: string := [];
    assert ([e] + pieces)[..i + 1] == [e] + pieces[..i];
    assert ([e] + pieces[..i])[1..] == pieces[..i];
  }

  /** A separator of the tail, seen one character earlier. */
  lemma SeparatorShift(s: string, quoted: bool, q: nat)
    requires s != []
    requires SeparatorFrom(s[1..], if s[0] == '"' then !quoted else quoted, q)
    ensures SeparatorFrom(s, quoted, q + 1)
  {
    assert s[..q + 1] == [s[0]] + s[1..][..q];
    QuoteCountAppend([s[0]], s[1..][..q]);
    assert [s[0]][..0] == [];
  }

  /**
   * Each boundary between two pieces lies on a space outside quotes,
   * counting the quotes from the start state `quoted`.
   */
  lemma {:induction false} SplitBoundariesFrom(s: string, quoted: bool)
    ensures forall i :: 0 <= i < |SplitUnquoted(s, quoted)| - 1 ==>
              SeparatorFrom(s, quoted, Boundary(SplitUnquoted(s, quoted), i))
    decreases |s|
  {
    var pieces := SplitUnquoted(s, quoted);
    if s == [] {
    } else if s[0] == ' ' && !quoted {
      var rest := SplitUnquoted(s[1..], false);
      SplitBoundariesFrom(s[1..], false);
      forall i | 0 <= i < |pieces| - 1
        ensures SeparatorFrom(s, quoted, Boundary(pieces, i))
      {
        if i == 0 {
          assert pieces[..1] == [[]];
          assert s[..0] == [];
        } else {
          assert |pieces| == 1 + |rest|;
          assert SeparatorFrom(s[1..], false, Boundary(rest, i - 1));
          BoundaryAfterEmpty(rest, i);
          SeparatorShift(s, quoted, Boundary(rest, i - 1));
        }
      }
    } else {
      var rest := SplitUnquoted(s[1..], if s[0] == '"' then !quoted else quoted);
      SplitBoundariesFrom(s[1..], if s[0] == '"' then !quoted else quoted);
      forall i | 0 <= i < |pieces| - 1
        ensures SeparatorFrom(s, quoted, Boundary(pieces, i))
      {
        assert |pieces| == |rest|;
        assert SeparatorFrom(s[1..], if s[0] == '"' then !quoted else quoted, Boundary(rest, i));
        BoundaryPrepend([s[0]], rest, i);
        SeparatorShift(s, quoted, Boundary(rest, i));
      }
    }
  }

  /** Every boundary between two pieces of a remainder is a space outside quotes. */
  lemma SplitAtSeparators(s: string)
    ensures var pieces := SplitUnquoted(s, false);
            forall i :: 0 <= i < |pieces| - 1 ==> Boundary(pieces, i) < |s| && IsSeparator(s, Boundary(pieces, i))
  {
    SplitBoundariesFrom(s, false);
  }

  /** There is one piece more than there are spaces outside quotes. */
  lemma SplitCount(s: string)
    ensures |SplitUnquoted(s, false)| == Separators(s, |s|) + 1
  {
    SplitCountFrom(s, 0);
    assert s[0..] == s;
  }

  /** The characters strings.Trim removes around a token. */
  const TokenCut: set<char> := {'"', ' '}

  /** Each piece trimmed of surrounding quotes and spaces. */
  function Tokens(pieces: seq<string>): (tokens: seq<string>)
    ensures |tokens| == |pieces|
    ensures forall i :: 0 <= i < |pieces| ==> tokens[i] == Trim(pieces[i], TokenCut)
  {
    seq(|pieces|, i requires 0 <= i < |pieces| => Trim(pieces[i], TokenCut))
  }

  /** The characters strings.Trim removes around the whole line. */
  function LineCut(newline: string): set<char>
  {
    set c | c in newline + " "
  }

  /**
   * The command and arguments of one line: no space after trimming means
   * the whole line is the command and there are no arguments; otherwise
   * the command ends at the first space and the rest is split into tokens.
   */
  function CommandLine(input: string, newline: string): (r: (string, seq<string>))
    ensures ' ' !in r.0
    ensures |r.1| == 0 <==> ' ' !in Trim(input, LineCut(newline))
    ensures ' ' !in Trim(input, LineCut(newline)) ==> r == (Trim(input, LineCut(newline)), [])
  {
    var vals := Trim(input, LineCut(newline));
    if ' ' !in vals then (vals, [])
    else
      var k := IndexOf(vals, ' ');
      (vals[..k], Tokens(SplitUnquoted(vals[k + 1..], false)))
  }

  lemma TokensCons(p: string, pieces: seq<string>)
    ensures Tokens([p] + pieces) == [Trim(p, TokenCut)] + Tokens(pieces)
  {
  }

  /** A space outside quotes closes the current piece and opens an empty one. */
  lemma SeparatorSplit(vals: string, start: nat, i: nat)
    requires start <= i < |vals| && vals[i] == ' '
    ensures Prepend(vals[start..i], SplitUnquoted(vals[i..], false))
         == [vals[start..i]] + Prepend(vals[i + 1..i + 1], SplitUnquoted(vals[i + 1..], false))
  {
    var rest := SplitUnquoted(vals[i + 1..], false);
    assert vals[i..][1..] == vals[i + 1..];
    assert vals[i..][0] == ' ';
    assert SplitUnquoted(vals[i..], false) == [[]] + rest;
    PrependCons(vals[start..i], [], rest);
    assert vals[start..i] + [] == vals[start..i];
    PrependEmpty(rest);
    assert vals[i + 1..i + 1] == [];
  }

  lemma SeparatorStep(vals: string, start: nat, i: nat)
    requires start <= i < |vals| && vals[i] == ' '
    ensures Tokens(Prepend(vals[start..i], SplitUnquoted(vals[i..], false)))
         == [Trim(vals[start..i], TokenCut)] + Tokens(Prepend(vals[i + 1..i + 1], SplitUnquoted(vals[i + 1..], false)))
  {
    SeparatorSplit(vals, start, i);
    TokensCons(vals[start..i], Prepend(vals[i + 1..i + 1], SplitUnquoted(vals[i + 1..], false)));
  }

  /** Any other character joins the current piece; a quote toggles the state. */
  lemma CharacterStep(vals: string, start: nat, i: nat, quoted: bool)
    requires start <= i < |vals| && !(vals[i] == ' ' && !quoted)
    ensures Prepend(vals[start..i], SplitUnquoted(vals[i..], quoted))
         == Prepend(vals[start..i + 1], SplitUnquoted(vals[i + 1..], if vals[i] == '"' then !quoted else quoted))
  {
    var rest := SplitUnquoted(vals[i + 1..], if vals[i] == '"' then !quoted else quoted);
    assert vals[i..][1..] == vals[i + 1..];
    assert vals[start..i] + [vals[i]] == vals[start..i + 1];
    assert vals[start..i] + ([vals[i]] + rest[0]) == vals[start..i + 1] + rest[0];
  }

  /** The end of the text closes the last piece. */
  lemma LastStep(vals: string, start: nat, quoted: bool)
    requires start <= |vals|
    ensures Tokens(Prepend(vals[start..|vals|], SplitUnquoted(vals[|vals|..], quoted))) == [Trim(vals[start..], TokenCut)]
  {
    assert vals[|vals|..] == [];
    assert vals[start..|vals|] == vals[start..];
    PrependSingle(vals[start..]);
    assert Tokens([vals[start..]])[0] == Trim(vals[start..], TokenCut);
  }

  lemma ConcatAssoc(a: seq<string>, b: seq<string>, c: seq<string>)
    ensures a + (b + c) == (a + b) + c
  {
  }

  /**
   * Once trimmed, a line with a space splits into the command before the
   * first space and the tokens of everything after it.
   */
  lemma CommandBeforeFirstSpace(input: string, newline: string, name: string, rest: string)
    requires Trim(input, LineCut(newline)) == name + " " + rest
    requires ' ' !in name
    ensures CommandLine(input, newline) == (name, Tokens(SplitUnquoted(rest, false)))
  {
    var vals := name + " " + rest;
    assert vals[|name|] == ' ';
    assert vals[..|name|] == name;
    assert vals[|name| + 1..] == rest;
  }

  /** The getCommand parser, from the trim onward. */
  method GetCommand(input: string, newline: string) returns (cmd: string, args: seq<string>)
    ensures (cmd, args) == CommandLine(input, newline)
  {
    var vals := Trim(input, LineCut(newline));
    cmd := vals;
    if ' ' !in vals {
      return cmd, [];
    }
    var k := IndexOf(cmd, ' ');
    cmd := vals[..k];
    vals := vals[k + 1..];
    ghost var whole := Tokens(SplitUnquoted(vals, false));
    args := [];
    var start := 0;
    var quoted := false;
    assert vals[0..] == vals;
    PrependEmpty(SplitUnquoted(vals, false));
    for i := 0 to |vals|
      invariant start <= i
      invariant args + Tokens(Prepend(vals[start..i], SplitUnquoted(vals[i..], quoted))) == whole
    {
      if vals[i] == ' ' && !quoted {
        SeparatorStep(vals, start, i);
        ghost var later := Tokens(Prepend(vals[i + 1..i + 1], SplitUnquoted(vals[i + 1..], quoted)));
        ConcatAssoc(args, [Trim(vals[start..i], TokenCut)], later);
        args := args + [Trim(vals[start..i], TokenCut)];
        start := i + 1;
      } else {
        CharacterStep(vals, start, i, quoted);
        if vals[i] == '"' {
          quoted := !quoted;
        }
      }
    }
    LastStep(vals, start, quoted);
    args := args + [Trim(vals[start..], TokenCut)];
  }

  /** What exec does with a command. Times are integer ticks since the Unix epoch. */
  datatype Action =
    | ListObjects(bucket: string)
    | SearchObjects(bucket: string, prefix: string)
    | ObjectLsUsage(got: string)
    | ListBuckets
    | DownloadObject(bucket: string, key: string, localFile: string)
    | ObjectDlUsage
    | DownloadWholeBucket(bucket: string, localDir: string, modifiedAfter: int)
    | BadDate(text: string)
    | BucketDlUsage
    | Exit
    | PrintCommands

  /** The command names exec knows besides help. */
  const Known: set<string> := {"s3-object-ls", "s3-bucket-ls", "s3-object-dl", "s3-bucket-dl", "exit"}

  /**
   * exec: dispatch on the command name and the number of arguments. Help
   * and every unknown name print the command list.
   */
  function Exec(cmd: string, args: seq<string>, parseDate: string -> Option<int>): (a: Action)
    ensures a.PrintCommands? <==> cmd !in Known
    // s3-object-ls: list with one argument, search with two, usage otherwise
    ensures a.ListObjects? <==> cmd == "s3-object-ls" && |args| == 1
    ensures a.ListObjects? ==> a.bucket == args[0]
    ensures a.SearchObjects? <==> cmd == "s3-object-ls" && |args| == 2
    ensures a.SearchObjects? ==> a.bucket == args[0] && a.prefix == args[1]
    ensures a.ObjectLsUsage? <==> cmd == "s3-object-ls" && |args| != 1 && |args| != 2
    ensures a.ObjectLsUsage? ==> a.got == Join(args, ',')
    ensures a.ListBuckets? <==> cmd == "s3-bucket-ls"
    // s3-object-dl: exactly three arguments, bucket, key and local file
    ensures a.DownloadObject? <==> cmd == "s3-object-dl" && |args| == 3
    ensures a.DownloadObject? ==> a.bucket == args[0] && a.key == args[1] && a.localFile == args[2]
    ensures a.ObjectDlUsage? <==> cmd == "s3-object-dl" && |args| != 3
    // s3-bucket-dl: two arguments, or three whose third is a date
    ensures a.DownloadWholeBucket? <==>
              cmd == "s3-bucket-dl" && (|args| == 2 || (|args| == 3 && parseDate(args[2]).Some?))
    ensures a.DownloadWholeBucket? ==>
              a.bucket == args[0] && a.localDir == args[1]
              && a.modifiedAfter == (if |args| == 2 then 0 else parseDate(args[2]).value)
    ensures a.BadDate? <==> cmd == "s3-bucket-dl" && |args| == 3 && parseDate(args[2]).None?
    ensures a.BadDate? ==> a.text == args[2]
    ensures a.BucketDlUsage? <==> cmd == "s3-bucket-dl" && |args| != 2 && |args| != 3
    ensures a.Exit? <==> cmd == "exit"
  {
    match cmd
    case "s3-object-ls" =>
      if |args| == 1 then ListObjects(args[0])
      else if |args| == 2 then SearchObjects(args[0], args[1])
      else ObjectLsUsage(Join(args, ','))
    case "s3-bucket-ls" => ListBuckets
    case "s3-object-dl" =>
      if |args| != 3 then ObjectDlUsage else DownloadObject(args[0], args[1], args[2])
    case "s3-bucket-dl" =>
      if |args| == 3 then
        match parseDate(args[2])
        case None => BadDate(args[2])
        case Some(mod) => DownloadWholeBucket(args[0], args[1], mod)
      else if |args| == 2 then DownloadWholeBucket(args[0], args[1], 0)
      else BucketDlUsage
    case "exit" => Exit
    case _ => PrintCommands
  }

  lemma LineCutNewline()
    ensures LineCut("\n") == {'\n', ' '}
  {
    assert "\n" + " " == ['\n', ' '];
  }

  lemma SplitDoubleSpace()
    ensures SplitUnquoted("a  b", false) == ["a", "", "b"]
  {
    assert "b"[1..] == "";
    PrependSingle("b");
    assert SplitUnquoted("b", false) == ["b"];
    assert " b"[1..] == "b";
    assert SplitUnquoted(" b", false) == ["", "b"];
    assert "  b"[1..] == " b";
    assert SplitUnquoted("  b", false) == ["", "", "b"];
    assert "a  b"[1..] == "  b";
    PrependCons("a", "", ["", "b"]);
    assert ["", "", "b"] == [""] + ["", "b"];
    assert "a" + "" == "a";
  }

  lemma TokensDoubleSpace()
    ensures Tokens(["a", "", "b"]) == ["a", "", "b"]
  {
    TrimIsSlice("a", TokenCut, 0, 1);
    TrimIsSlice("b", TokenCut, 0, 1);
  }

  lemma TrimDoubleSpaceLine()
    ensures Trim("s3-object-ls a  b\n", LineCut("\n")) == "s3-object-ls a  b"
  {
    LineCutNewline();
    TrimIsSlice("s3-object-ls a  b\n", {'\n', ' '}, 0, 17);
    assert "s3-object-ls a  b\n"[0..17] == "s3-object-ls a  b";
  }

  /** Two spaces in a row give an empty argument. */
  lemma DoubleSpaceExample()
    ensures CommandLine("s3-object-ls a  b\n", "\n") == ("s3-object-ls", ["a", "", "b"])
  {
    TrimDoubleSpaceLine();
    assert "s3-object-ls a  b" == "s3-object-ls" + " " + "a  b";
    CommandBeforeFirstSpace("s3-object-ls a  b\n", "\n", "s3-object-ls", "a  b");
    SplitDoubleSpace();
    TokensDoubleSpace();
  }

  lemma SplitQuotedTail()
    ensures SplitUnquoted("y\"", true) == ["y\""]
  {
    assert "\""[1..] == "";
    PrependSingle("\"");
    assert SplitUnquoted("\"", true) == ["\""];
    assert "y\""[1..] == "\"";
    PrependCons("y", "\"", []);
    assert "y" + "\"" == "y\"" && ["\""] + [] == ["\""];
  }

  lemma SplitQuotedWord()
    ensures SplitUnquoted("\"x y\"", false) == ["\"x y\""]
  {
    SplitQuotedTail();
    assert " y\""[1..] == "y\"";
    PrependCons(" ", "y\"", []);
    assert " " + "y\"" == " y\"" && ["y\""] + [] == ["y\""];
    assert SplitUnquoted(" y\"", true) == [" y\""];
    assert "x y\""[1..] == " y\"";
    PrependCons("x", " y\"", []);
    assert "x" + " y\"" == "x y\"" && [" y\""] + [] == [" y\""];
    assert SplitUnquoted("x y\"", true) == ["x y\""];
    assert "\"x y\""[1..] == "x y\"";
    PrependCons("\"", "x y\"", []);
    assert "\"" + "x y\"" == "\"x y\"" && ["x y\""] + [] == ["x y\""];
  }

  lemma SplitQuoted()
    ensures SplitUnquoted("b \"x y\"", false) == ["b", "\"x y\""]
  {
    SplitQuotedWord();
    assert " \"x y\""[1..] == "\"x y\"";
    assert SplitUnquoted(" \"x y\"", false) == ["", "\"x y\""];
    assert "b \"x y\""[1..] == " \"x y\"";
    PrependCons("b", "", ["\"x y\""]);
    assert ["", "\"x y\""] == [""] + ["\"x y\""];
    assert "b" + "" == "b";
  }

  lemma TokensQuoted()
    ensures Tokens(["b", "\"x y\""]) == ["b", "x y"]
  {
    TrimIsSlice("b", TokenCut, 0, 1);
    TrimIsSlice("\"x y\"", TokenCut, 1, 4);
    assert "\"x y\""[1..4] == "x y";
  }

  lemma TrimQuotedLine()
    ensures Trim("s3-bucket-dl b \"x y\"", LineCut("\n")) == "s3-bucket-dl b \"x y\""
  {
    var line := "s3-bucket-dl b \"x y\"";
    LineCutNewline();
    TrimIsSlice(line, {'\n', ' '}, 0, |line|);
    assert line[0..|line|] == line;
  }

  /** A quoted argument keeps its space; the quotes are trimmed away. */
  lemma QuotedArgumentExample()
    ensures CommandLine("s3-bucket-dl b \"x y\"", "\n") == ("s3-bucket-dl", ["b", "x y"])
  {
    TrimQuotedLine();
    assert "s3-bucket-dl b \"x y\"" == "s3-bucket-dl" + " " + "b \"x y\"";
    CommandBeforeFirstSpace("s3-bucket-dl b \"x y\"", "\n", "s3-bucket-dl", "b \"x y\"");
    SplitQuoted();
    TokensQuoted();
  }

  /** Without a date, a bucket download takes every object changed after the epoch. */
  lemma BucketDownloadExample(parseDate: string -> Option<int>)
    ensures var (cmd, args) := CommandLine("s3-bucket-dl b \"x y\"", "\n");
            Exec(cmd, args, parseDate) == DownloadWholeBucket("b", "x y", 0)
  {
    QuotedArgumentExample();
  }
}

=== FILE: sizes.dfy ===
/**
 * Human-readable byte counts, as the bucket tools print them: Go's
 * `strconv.FormatInt(n, 10)` for the number and the unit chosen by
 * `formatFileSize` from the integer thresholds 1e3, 1e6 and 1e9.
 */
module Sizes {
  import opened Basics
  import Arithmetic

  const KB: int := 1000
  const MB: int := 1000000
  const GB: int := 1000000000

  predicate IsDigit(c: char) {
    '0' <= c <= '9'
  }

  predicate IsDigits(s: string) {
    forall i :: 0 <= i < |s| ==> IsDigit(s[i])
  }

  function DigitChar(d: nat): (c: char)
    requires d < 10
    ensures IsDigit(c) && c as int - '0' as int == d
  {
    ('0' as int + d) as char
  }

  /** The value of a string of decimal digits, most significant first. */
  function DigitsValue(s: string): (n: nat)
    requires IsDigits(s)
  {
    if s == [] then 0
    else DigitsValue(s[..|s| - 1]) * 10 + (s[|s| - 1] as int - '0' as int)
  }

  /**
   * Decimal text of a natural number with no leading zeros: the
   * non-negative half of `strconv.FormatInt(n, 10)`.
   */
  function NatToDecimal(n: nat): (s: string)
    ensures |s| >= 1 && IsDigits(s)
    ensures DigitsValue(s) == n
    ensures s[0] == '0' ==> s == "0"
    decreases n
  {
    if n < 10 then [DigitChar(n)]
    else
      var prefix := NatToDecimal(n / 10);
      assert (prefix + [DigitChar(n % 10)])[..|prefix|] == prefix;
      prefix + [DigitChar(n % 10)]
  }

  /** `strconv.FormatInt(n, 10)`: a minus sign, then the magnitude. */
  function IntToDecimal(n: int): (s: string)
    ensures n >= 0 ==> |s| >= 1 && IsDigits(s) && DigitsValue(s) == n && (s[0] == '0' ==> s == "0")
    ensures n < 0 ==> |s| >= 2 && s[0] == '-' && IsDigits(s[1..]) && DigitsValue(s[1..]) == -n && s[1] != '0'
  {
    if n < 0 then "-" + NatToDecimal(-n) else NatToDecimal(n)
  }

  /** Reads back what IntToDecimal writes: optional '-', then at least one digit. */
  function ParseInt(s: string): (r: Option<int>)
  {
    if |s| >= 2 && s[0] == '-' && IsDigits(s[1..]) then Some(0 - DigitsValue(s[1..]))
    else if |s| >= 1 && IsDigits(s) then Some(DigitsValue(s))
    else None
  }

  lemma IntToDecimalRoundTrip(n: int)
    ensures ParseInt(IntToDecimal(n)) == Some(n)
  {
    if n < 0 {
      var s := IntToDecimal(n);
      assert s[1..] == NatToDecimal(-n);
    } else {
      assert IntToDecimal(n)[0] != '-';
    }
  }

  /** The three-character unit text that closes every size string. */
  predicate IsUnitSuffix(u: string) {
    u == " B " || u == " KB" || u == " MB" || u == " GB"
  }

  /** How many bytes one displayed unit stands for. */
  function UnitBytes(u: string): (b: int)
    requires IsUnitSuffix(u)
    ensures b > 0
  {
    if u == " B " then 1 else if u == " KB" then KB else if u == " MB" then MB else GB
  }

  /**
   * formatFileSize: the unit is the first one whose strict upper bound
   * exceeds `size`; the number is the quotient by that unit. The quotients
   * are only taken for size >= 1000, where Go's truncating division and
   * Dafny's Euclidean division agree.
   */
  function FormatFileSize(size: int): (r: string)
    ensures |r| >= 4 && IsUnitSuffix(r[|r| - 3..])
    ensures r[|r| - 3..] == " B " <==> size < KB
    ensures r[|r| - 3..] == " KB" <==> KB <= size < MB
    ensures r[|r| - 3..] == " MB" <==> MB <= size < GB
    ensures r[|r| - 3..] == " GB" <==> GB <= size
    ensures ParseInt(r[..|r| - 3]) == Some(size / UnitBytes(r[|r| - 3..]))
    ensures r[..|r| - 3] == IntToDecimal(size / UnitBytes(r[|r| - 3..]))
  {
    var unit := if size < KB then " B " else if size < MB then " KB" else if size < GB then " MB" else " GB";
    var number := IntToDecimal(size / UnitBytes(unit));
    IntToDecimalRoundTrip(size / UnitBytes(unit));
    assert (number + unit)[..|number|] == number;
    assert (number + unit)[|number|..] == unit;
    number + unit
  }

  /**
   * For a non-negative size the displayed number is the size rounded down
   * to whole units, and below the gigabyte unit it has one to three digits.
   */
  lemma FormatFileSizeRange(size: nat)
    ensures var r := FormatFileSize(size);
            var u := r[|r| - 3..];
            var shown := size / UnitBytes(u);
            && shown * UnitBytes(u) <= size < (shown + 1) * UnitBytes(u)
            && (u != " GB" ==> shown < 1000)
            && (u != " B " ==> shown >= 1)
  {
    var r := FormatFileSize(size);
    var u := r[|r| - 3..];
    if size < KB {
      assert u == " B ";
      Arithmetic.QuotientRange(size, 1, 0, 1000);
    } else if size < MB {
      assert u == " KB";
      Arithmetic.QuotientRange(size, KB, 1, 1000);
    } else if size < GB {
      assert u == " MB";
      Arithmetic.QuotientRange(size, MB, 1, 1000);
    } else {
      assert u == " GB";
      Arithmetic.QuotientRange(size, GB, 1, size + 1);
    }
  }

  /** 999 bytes is the last size shown in bytes. */
  lemma FormatFileSizeBelowKB()
    ensures FormatFileSize(999) == "999 B "
  {
    assert NatToDecimal(99) == NatToDecimal(9) + "9";
    assert NatToDecimal(999) == NatToDecimal(99) + "9";
  }

  /** 1000 bytes is the first size shown in kilobytes. */
  lemma FormatFileSizeAtKB()
    ensures FormatFileSize(1000) == "1 KB"
  {
    assert 1000 / UnitBytes(" KB") == 1;
    assert IntToDecimal(1) == "1";
  }
}
